=== FILE: README.md ===
# Live2D character dialogue core, modelled in Dafny

This project models the logic of a browser page that hosts Live2D characters.
Each character talks in speech bubbles and acts on what it says.

- **Mapper.** `src/mapping.js` parses a `model3.json` configuration into 0-based expression and flat motion tables. It resolves input in one of two modes. Manual mode takes a 1-based command such as `motion 5` or `{ type: "expression", index: 3 }`. Natural mode looks up a phrase table of `phrase → { kind, name }` rules: first the exact key, then the first key contained in the input. The mapper object keeps that table and the current mode.
- **Tagged dialogue.** `src/say-enhanced-helpers.mjs` cuts the first bracket tag, such as `(害羞)` or `（害羞）`, out of a line of dialogue. It looks the tag up in the phrase table and builds the payload handed to `say`: the cleaned text plus a motion or an expression.
- **Dialogue API.** `src/dialog-api.js` lays text out in a bubble. Text is cut into lines of `maxChars` characters, at most `maxLines` of them. When it does not fit, the last line loses up to two characters and gains `…`; text over capacity keeps its tail. Each bubble has a typewriter reveal driven by the ticker. `say` dispatches an action with an audio fallback, then shows the bubble.
- **Action controller.** `src/action.js` turns input into a spec and fills in the motion options. These default `resetExpression` to true and return to the `Idle` group when a motion ends. The controller then plays the spec on the model.
- **Character registry.** `src/character-manager.js` is a `Map` from character id to character.
- **Developer panel.** `src/panel-dev.js` parses `play key5` / `play M5` / `play E3` commands. It watches a motion run and then finish, and names the exported phrase-table file.

The model has one Dafny module per source file. Two shared modules support them:

- `Js` holds the JavaScript values the core manipulates: truthiness, `String(...)`, `Number(...)`, `trim` and `\s`, `indexOf`/`includes`, and ASCII `toLowerCase`.
- `Ordered` models an insertion-ordered string-keyed table. That is how a plain object with non-numeric keys, and a `Map`, behave: re-assigning a key keeps its place, and spreading assigns keys in order.

Loops in the source are methods with loop invariants, proved against the functions that specify them. Objects whose state the source updates are classes:

- the mapper (its mode and phrase table);
- a speech bubble (its text, layout settings and reveal record);
- the bubble cache;
- the character registry;
- the motion watcher.

Calls into code outside the core are function-typed parameters.

- **Calls that answer or throw.** The model's `motion` and `expression`, the expression manager's `setExpression`, and the action controller's `act`/`actWithAudio` as `say` calls them. Each answers with a value or a thrown exception.
- **The caller's `getNLMap`.** It answers a phrase table or nothing.
- **The motion manager's `isFinished`.** Each reading is an input to a tick of the watcher.

The regular expressions of the source are written out as functions:

- **Searches.** The bracket tag (`FirstTagLeftmost`), the `play` command (`FirstMatchLeftmost`, with `MatchAtShape` reading a match back into the parts of the pattern) and `.{0,2}$` (`DropTail2IsSearch`) have lemmas showing that they find the leftmost match.
- **Replace-all.** `/\W+/g` in the export name has lemmas showing that it replaces run by run.
- **Splits.** The `/\s+/` split of a manual command and the `/[，,]/` split of a phrase list are scans with no lemma of their own; the lemmas about manual resolution and phrase binding cover them.

## Model

| member | source | states |
|---|---|---|
| Mapping.FileBaseNameOfMotionFile | src/mapping.js:8-13 | for a folder and a base name without `/` or `.`, `dir/base.motion3.json`, `base.json` and `dir/base` all reduce to `base` |
| Mapping.ParseModelConfig | src/mapping.js:18-64 | the parsed configuration is well formed: expressions numbered 0.., flat motions numbered 0.., the two index maps agree with the lists, `motionByName` maps each name to the last motion carrying it; expressions keep the names and files of the configuration in order; the flat motions are the groups' motions in group order |
| Mapping.CollectMotions | src/mapping.js:27-41 | the nested loop over groups and their motions pushes exactly the flattened list of every group's motions, each numbered within its group and named by its file's base name |
| Mapping.IndexByName | src/mapping.js:48-49 | the loop builds the name map in which a later motion overwrites an earlier one of the same name |
| Mapping.IndexExpressions | src/mapping.js:51-52 | the loop maps each 0-based index to the expression at that position |
| Mapping.IndexMotions | src/mapping.js:54-55 | the loop maps each flat index to the motion at that position |
| Mapping.FlattenSize | src/mapping.js:27-41 | the flat list holds as many motions as all groups together |
| Mapping.FlattenAt | src/mapping.js:30-41 | motion `j` of group `g` sits at position (size of the groups before `g`) + `j` of the flat list |
| Mapping.LastByNameSpec | src/mapping.js:48-49 | a motion that no later motion shares its name with is what its name maps to |
| Mapping.LastByNameKeys | src/mapping.js:48-49 | the name map has exactly the names of the flat motions as keys |
| Mapping.SpecObject | src/mapping.js:116-128 | every spec object the mapper returns has a truthy `kind`, so the action controller takes it as a spec |
| Mapping.SpecByIndex1 | src/mapping.js:113-129 | index lookups are 1-based: `index1` in 1..n yields element `index1 - 1` (as `{kind:"expression", name}` or the motion's fields), anything else yields null |
| Mapping.ResolveManualSpec | src/mapping.js:143-148 | manual resolution succeeds exactly for type `expression` or `motion` with a numeric index from 1 to the table size, and then yields that element |
| Mapping.ManualObjectForm | src/mapping.js:138-140 | the object form reads its `type` lower-cased and its `index` through `Number` |
| Mapping.ManualTextForm | src/mapping.js:134-137 | the text form `"<type> <digits>"` reads the lower-cased first word and the value of the digits |
| Mapping.ManualTextMatchesObject | src/mapping.js:131-149 | `"<type> <digits>"` and `{ type, index: <digits> }` resolve to the same spec |
| Mapping.ResolveNaturalExact | src/mapping.js:151-170 | a blank input resolves to null; an exact key whose rule is an expression or a motion decides the result |
| Mapping.ResolveNaturalFirstContained | src/mapping.js:172-189 | otherwise the first key in table order that the input contains and whose rule has a known kind decides (an unknown motion name gives null without trying later keys) |
| Mapping.ResolveNaturalNone | src/mapping.js:151-192 | when neither the exact key nor any contained key decides, the result is null |
| Mapping.PhraseTextAccepted | src/mapping.js:215-227 | binding a comma-separated text succeeds exactly when the spec's kind is known and the text holds a non-blank phrase |
| Mapping.AcceptedAmong | src/mapping.js:223-227 | among non-blank phrases, one is bound exactly when there is a phrase and the kind is known |
| Mapping.BindOneLookup | src/mapping.js:199-213 | after binding one phrase its trimmed key reads as `{kind, name}` of the spec and every other key is unchanged; a rejected phrase changes nothing |
| Mapping.BindAllUnknownKind | src/mapping.js:201-209 | a spec of unknown kind binds nothing |
| Mapping.BindAllDistinct | src/mapping.js:215-227 | binding keeps every key of the table distinct |
| Mapping.Mapper.constructor | src/mapping.js:96-110 | the table is the persisted one (when `persist`) overlaid with the initial one, key by key the initial entry winning; mode and exported mode are the given mode |
| Mapping.Mapper.Resolve | src/mapping.js:194-196 | mode 1 resolves manually, any other mode through the phrase table |
| Mapping.Mapper.SetMode | src/mapping.js:234-236 | the mode becomes 2 for the number 2 and 1 for anything else |
| Mapping.Mapper.GetNLMap | src/mapping.js:230-232 | the copy reads every key as the table does and keeps keys distinct |
| Mapping.Mapper.BindPhrase | src/mapping.js:199-213 | returns true exactly for a non-blank phrase and a spec of kind expression or motion; the table becomes the old one with that binding; the table is saved exactly when bound with `persist` |
| Mapping.Mapper.BindPhrases | src/mapping.js:215-228 | every phrase of the array (or of the comma-split text) is bound in order; the result says whether any phrase was bound; the table is saved exactly when a phrase was bound with `persist`, otherwise the saved table is unchanged |
| Mapping.Mapper.BindEach | src/mapping.js:223-227 | the loop that does not stop at a failure binds every phrase in order and reports whether any was accepted; the last accepted phrase leaves the table saved (with `persist`), and without one the saved table is unchanged |
| SayEnhanced.FirstTagLeftmost | src/say-enhanced-helpers.mjs:9 | the tag search finds the leftmost bracket match, and finds one whenever one exists |
| SayEnhanced.TagShape | src/say-enhanced-helpers.mjs:13-15 | a returned tag is non-empty, trimmed and bracket-free; the tag is null exactly when there is no match or the bracket body is blank |
| SayEnhanced.CleanTextEmpty | src/say-enhanced-helpers.mjs:11-15 | the clean text is empty only when the whole input is blank |
| SayEnhanced.LeadingTag | src/say-enhanced-helpers.mjs:7-16 | a line that opens with `(body)` or `（body）` gives the trimmed body as tag and the trimmed rest as clean text |
| SayEnhanced.ResolveActionFromNLMap | src/say-enhanced-helpers.mjs:18-40 | no entry unless the tag is an own key of the table; a motion rule gives the tag as motion; an expression rule gives its name, except for id `hiyori`; never both |
| SayEnhanced.CreateSayEnhanced | src/say-enhanced-helpers.mjs:42-46 | creation fails exactly when `say` is not a function |
| SayEnhanced.PayloadMotion | src/say-enhanced-helpers.mjs:51-61 | the payload has `motion` exactly when the tag names a motion rule, and then it is the tag |
| SayEnhanced.PayloadExpression | src/say-enhanced-helpers.mjs:51-64 | the payload has `expression` exactly when the id is not `hiyori` and the tag names an expression rule with a defined name, and then it is that name |
| SayEnhanced.PayloadOfActionKeys | src/say-enhanced-helpers.mjs:61-64 | the payload's motion is the action's truthy motion and its expression the action's defined expression, outside `hiyori` |
| SayEnhanced.PayloadFields | src/say-enhanced-helpers.mjs:47-59 | every option other than id, text, debug, motion and expression is forwarded unchanged; `debug` never is; `id` and the clean text are set |
| SayEnhanced.PayloadOfFields | src/say-enhanced-helpers.mjs:55-59 | the same forwarding property for any clean text and action |
| Dialog.Chunks | src/dialog-api.js:29-30 | each slice holds between 1 and `maxChars` characters |
| Dialog.DropTail2IsSearch | src/dialog-api.js:34 | the case split for `replace(/.{0,2}$/, "")` is the leftmost-match search of that pattern (`.` stopping at line terminators) |
| Dialog.WrapText | src/dialog-api.js:27-40 | the loop's result is the joined lines of the specification `WrapLines` |
| Dialog.ChunksConcat | src/dialog-api.js:29-30 | the slices laid end to end give back the text |
| Dialog.ChunkAt | src/dialog-api.js:29-30 | slice `k` is `text[k*w .. min((k+1)*w, n)]` |
| Dialog.ChunkCount | src/dialog-api.js:29-31 | there are at most `m` slices exactly when the text fits in `m*w` characters |
| Dialog.WrapEmpty | src/dialog-api.js:27-40 | the empty text wraps to the empty string |
| Dialog.WrapBounds | src/dialog-api.js:27-40 | at most `max(1, maxLines)` lines, none empty, each at most `maxChars` long except the last, which is at most `maxChars + 1` |
| Dialog.WrapBoundsPlain | src/dialog-api.js:27-40 | without line terminators every line is at most `maxChars` long |
| Dialog.WrapWithinCapacity | src/dialog-api.js:29-38 | text within `maxChars * maxLines` is cut into its slices without loss and without `…` |
| Dialog.WrapOverCapacity | src/dialog-api.js:31-36 | text over capacity gives exactly `maxLines` lines |
| Dialog.WrapOverCapacityLine | src/dialog-api.js:29-36 | over capacity, line `k` is slice `k`, and the last line is its slice minus up to two final characters followed by `…` |
| Dialog.LayoutBubbleText | src/dialog-api.js:43-48 | the method computes the specification `BubbleText` |
| Dialog.BubbleTextEmpty | src/dialog-api.js:43-45 | the empty text lays out as the empty string |
| Dialog.LayoutWithinCapacity | src/dialog-api.js:44-45 | within capacity the bubble text is the wrapped text itself |
| Dialog.LayoutOverCapacity | src/dialog-api.js:44-47 | over a capacity of at least two, the lines are `…` followed by the last `capacity - 1` characters, cut into slices without loss |
| Dialog.Bubble.constructor | src/dialog-api.js:52-61 | a new bubble is hidden, empty, not revealing, with font 18, 3 lines, 14 characters and reveal speed 8 |
| Dialog.Bubble.SetText | src/dialog-api.js:145-153 | the settings become the given ones, the reveal stops and the bubble shows the laid-out text |
| Dialog.Bubble.AnimateText | src/dialog-api.js:155-171 | a positive speed starts a reveal of the text from an empty bubble at time `now`; otherwise it behaves as `SetText`; the bubble invariant is kept |
| Dialog.Bubble.Tick | src/dialog-api.js:181-194 | a tick of an active reveal shows the laid-out prefix of `min(length, count)` characters, leaves the text alone when the count did not change, and ends the reveal exactly when the whole text is shown; an inactive bubble is unchanged |
| Dialog.MotionInput | src/dialog-api.js:266 | the motion input is the motion, or the text when the motion is null or undefined |
| Dialog.Extra | src/dialog-api.js:267-276 | `sound` and `crossOrigin: "anonymous"` exactly with a truthy audio URL; `priority` exactly when defined; `expression` with `resetExpression: true` exactly when defined; no other key |
| Dialog.SayResultOk | src/dialog-api.js:278-288 | an exception of the controller is the outcome of `say`; otherwise an ok result from the controller stands, a fallback motion that does not throw replaces a result that is not ok, and the result is ok exactly when one of the two succeeded |
| Dialog.FallbackSound | src/dialog-api.js:285 | the fallback motion carries the audio exactly when `say` was given one |
| Dialog.Dialogue.GetBubble | src/dialog-api.js:227-234 | a cached bubble is returned as it is; a character with a model gets a new bubble in its initial state, cached under the id; otherwise none |
| Dialog.Dialogue.Say | src/dialog-api.js:247-310 | without a model the result is `{ok: false, spec: null}`, the cache is unchanged and no bubble changes; otherwise the result is the dispatch result, a new bubble is cached under the id, and no other bubble changes; when the controller throws, the bubble is left as it was; otherwise it is visible with the requested settings and either starts a reveal of the text at time `now` with the chosen speed from count 0, or shows the laid-out text at once with its reveal record kept |
| Dialog.Bubble.Show | src/dialog-api.js:297-303 | `animateText` with the requested settings, then the bubble is visible |
| PanelDev.ParsePlayCommand | src/panel-dev.js:3-21 | a parsed command has kind `expression` or `motion` and an index of at least 1 |
| PanelDev.CommandOf | src/panel-dev.js:13-20 | the same bounds for the command spelled by any match |
| PanelDev.FirstMatchLeftmost | src/panel-dev.js:10 | the pattern search finds the leftmost match, and finds one whenever one exists |
| PanelDev.MatchAtShape | src/panel-dev.js:10 | a match reads `play` in any case, at least one whitespace, an optional `key`/`m`/`e` tag in any case (the captured tag), whitespace and a whole digit run (the captured digits) |
| PanelDev.ParsePlayCommandSpec | src/panel-dev.js:4-11 | a command parses only if the trimmed text contains a match; without a match the result is null |
| PanelDev.ParseCanonical | src/panel-dev.js:3-21 | `play key<n>` and `play m<n>` and `play <n>` give motion `n`, `play e<n>` gives expression `n`, and index 0 gives null |
| PanelDev.CanonicalMatch | src/panel-dev.js:10 | the pattern matches the written form at its start with the written tag and digits |
| PanelDev.ParsedCommandResolves | src/mapping.js:138-148 | a parsed command given to manual resolution selects the element it numbers (1-based), or null when out of range |
| PanelDev.NeverRunningNeverEnds | src/panel-dev.js:36-45 | a motion never seen running never counts as finished |
| PanelDev.MotionWatcher.constructor | src/panel-dev.js:25-33 | without `isFinished` the wait resolves at once; otherwise the tick is attached and nothing is resolved |
| PanelDev.MotionWatcher.Tick | src/panel-dev.js:36-45 | `seenRunning` records a running reading; the wait resolves (and the tick detaches) exactly at the first finished reading after a running one |
| PanelDev.RanThenFinishedStep | src/panel-dev.js:39-44 | one more reading completes the edge exactly when it says finished and a running reading came before |
| PanelDev.Sanitize | src/panel-dev.js:244 | the sanitised name is no longer than the id |
| PanelDev.SanitizeConcat | src/panel-dev.js:244 | two pieces whose junction is not inside a run of non-word characters are sanitised independently |
| PanelDev.SanitizeRun | src/panel-dev.js:244 | a non-empty run of non-word characters becomes exactly one `_` |
| PanelDev.SanitizeRunBetween | src/panel-dev.js:244 | a maximal run of non-word characters between two pieces becomes one `_` between their sanitised forms, so each maximal run collapses to one `_` |
| PanelDev.SanitizeWordChars | src/panel-dev.js:244 | the sanitised name holds only `\w` characters |
| PanelDev.SanitizeKeepsWords | src/panel-dev.js:244 | a name of `\w` characters only is kept as it is |
| PanelDev.SanitizeIdempotent | src/panel-dev.js:244 | sanitising twice is sanitising once |
| PanelDev.ExportFileNameShape | src/panel-dev.js:244 | the file name is the sanitised id, all `\w` characters, followed by `_nl_map.json` |
| Action.NormalizeSpec | src/action.js:5-8 | an input with a truthy `kind` is taken as the spec; otherwise the mapper's resolution, as an object; a spec always has a truthy kind |
| Action.CopiedOptionsAt | src/action.js:10-17 | `sound`, `crossOrigin`, `onFinish`, `onError` are copied from the spec when truthy, `volume`, `expression`, `resetExpression` when defined; every other option is that of `spec.options` |
| Action.BuildOptionsReset | src/action.js:19-22 | a defined expression without a defined `resetExpression` gets `resetExpression: true`; a given one is kept |
| Action.BuildOptionsOnFinish | src/action.js:24-31 | without an `onFinish` of its own a motion outside group `Idle` returns to `Idle` when it ends; a given `onFinish` is kept |
| Action.BuildOptionsRest | src/action.js:10-34 | the defaults touch no option other than `resetExpression` and `onFinish` |
| Action.TryCallExpression | src/action.js:37-52 | `model.expression(name)` answers if it exists and returns; else the expression manager's `setExpression(name)`; else `false` |
| Action.ActSpec | src/action.js:55-68 | unresolved input fails with a null spec; a model that is not ready fails with the resolved spec; otherwise the spec is the resolved one with the `extra` fields laid over it |
| Action.ActOk | src/action.js:70-91 | an expression succeeds when the expression call answers truthy; a motion succeeds when `model.motion` exists, returns and answers truthy; any other kind fails |
| Action.List | src/action.js:94-101 | the listing reports the mapper's exported mode, its expression and motion tables and a copy of its phrase table |
| CharacterManager.Manager.constructor | src/character-manager.js:4 | the registry starts empty |
| CharacterManager.Manager.Register | src/character-manager.js:6-9 | the character becomes what its id reads as, every other id reads as before, a new id goes last and a known id keeps its place |
| CharacterManager.Manager.Get | src/character-manager.js:11-13 | a character is returned exactly for a registered id, and it carries that id |
| CharacterManager.Manager.List | src/character-manager.js:15-17 | one character per registered id, in registration order, each the one `get` returns for its id |
| CharacterManager.RegisterIdempotent | src/character-manager.js:6-9 | registering the same character twice leaves the registry as the first time did |
| Ordered.PutLookup | src/mapping.js:204-206 | after an assignment the key reads as the new value and every other key as before |
| Ordered.PutKeys | src/character-manager.js:8 | an existing key keeps its place, a new key goes last, and keys stay distinct |
| Ordered.MergeLookup | src/mapping.js:107-110 | in `{ ...a, ...b }` a key of `b` reads as in `b` and any other key as in `a` |
| Ordered.MergeDistinct | src/mapping.js:107-110 | spreading keeps keys distinct |
| Js.TrimEmptyIffAllSpace | src/mapping.js:152-153 | a trimmed string is empty exactly when the string is all whitespace |
| Js.IncludesIff | src/mapping.js:174 | `includes` holds exactly when the pattern occurs somewhere |
| Js.DigitsToNumber | src/mapping.js:137 | `Number` of a run of decimal digits is its value |

## Left out

- **Fetching and storage.** `fetch` of the model JSON, `localStorage` loading and saving, and JSON text are left out. The constructor takes the parsed configuration and the persisted table; saving is recorded as a ghost copy of the saved table. `exportNLMapJson` (JSON text) is not modelled.
- **Rendering.** Drawing, DOM and PIXI are left out: gradient textures, sparkles, `redraw`, `follow`, panel widgets, and the `a.click()` download.
- **Clocks and timers.** `performance.now()` and the elapsed-time arithmetic of `tick` are inputs: the tick receives the revealed character count. The `setTimeout` that hides the bubble is left out.
- **Audio-driven reveal speed.** `estimateDuration` loads audio and uses floating point. `say` receives the resulting reveal speed as `revealCps`.
- **Number values.** JavaScript numbers are integers here: fractions, `NaN` and `Infinity` are left out. `Js.ToNumber` accepts plain decimal digit strings only; hexadecimal, exponent, signed and fractional text reads as NaN.
- **Object-key order.** Integer-like keys, which JavaScript lists first, and `__proto__` are not modelled; table keys keep insertion order.
- **Lower-casing.** Lower-casing covers ASCII letters only.
- **Text outside the Basic Multilingual Plane.** Dafny's `char` has no surrogate code units, so strings holding astral characters such as emoji, which JavaScript stores as two UTF-16 code units, are not modelled. For such text the lengths, the slices of `wrapText` and `layoutBubbleText` (which in JavaScript can split a surrogate pair) and the per-line capacity are not captured.
- **Function values.** A function value is represented by a name standing for its source text.
- Mapping.ManualTypeAndIndex: a truthy `type` that is not a string makes `(input.type || "").toLowerCase()` throw a TypeError in the source; the model reads it as no type, so resolution answers null instead of throwing.
- Mapping.ResolveNatural: phrase-table values that are not objects are not modelled; every entry is a `{ kind, name }` rule. In the source a `null` or `undefined` value passes the exact-match test untouched, but makes the contains scan throw a TypeError when it reads `rule.kind` of a key the input contains. For example, `{ "hi": null }` with input `"hi there"` throws.
- Mapping.ParseModelConfig: expressions and motions without `Name`/`File`, and non-array motion groups, are not modelled; names and files are strings.
- **`sayEnhanced` options.** A `null` options object, which would make the destructuring throw, is not modelled. `debug` logging and the promise returned from `say` are left out. An exception thrown by the caller's `getNLMap` is not modelled.
- Action.BuildOptions: a string `options` value, whose characters the spread would copy as indexed keys, is treated as no options.
- Action.Act: an exception thrown by `model.expression` is caught as in the source, but the warnings written to the console are left out.
- Dialog.WrapText: requires `maxChars >= 1`. For a width of 0 the source emits `maxLines` empty lines, the last one replaced by `…`; for a negative width it slices from the end of the text. The same requirement is on `LayoutBubbleText`, `SetText`, `AnimateText`, `Bubble.Show` and `Dialogue.Say` (as `maxCharsPerLine >= 1`), so `say` with a width below 1, which the source lays out as described, is not modelled.
- Dialog.Dialogue.Say: the call `controller.setMode?.(id, 2)` into the page controller is left out, and with it any exception it throws. The destructuring defaults are taken as applied, with the text as a string. The bubble is looked up through `hasModel`, which stands for `manager.get(id)?.model`. `say` is modelled as one atomic step. In the source it is `async` and awaits the duration estimate between the dispatch and the bubble update. So when several calls for one id overlap, the bubble is updated in the order their estimates finish, not in the order of the calls. That interleaving is not captured.
- CharacterManager.Manager.Register: character ids are strings; other `Map` keys are not modelled.
- PanelDev.MotionWatcher.Tick: the ticker and the promise are reduced to the `attached` and `resolved` flags.

=== FILE: action.dfy ===
/** The action controller of one character: turns an input into a spec,
    completes the options of a motion, and plays the spec on the model. The
    model's own calls are oracles that return a value or throw. */
module Action {
  import opened Js
  import opened Ordered
  import opened Mapping

  /** `MotionPriority.NORMAL` and `MotionPriority.IDLE` of the animation library. */
  const NORMAL: int := 2
  const IDLE: int := 1

  /** The callback `buildOptions` installs to return to the `Idle` group
      (`model.motion?.("Idle", undefined, MotionPriority.IDLE)`, errors ignored). */
  const ReturnToIdle: JsValue := Fn("() => model.motion?.(\"Idle\", undefined, IDLE)")

  /** `normalizeSpec(mapper, inputOrSpec)`: a value with a truthy `kind` is
      already a spec; anything else goes through the mapper. */
  function NormalizeSpec(mapper: Mapper, input: JsValue): (r: Option<Fields>)
    reads mapper
    ensures Truthy(Prop(input, "kind")) ==> r == Some(input.fields)
    ensures !Truthy(Prop(input, "kind")) ==>
              (r.Some? <==> mapper.Resolve(input).Some?) &&
              (r.Some? ==> r.value == SpecObject(mapper.Resolve(input).value))
    ensures r.Some? ==> Truthy(Get(r.value, "kind"))
  {
    if Truthy(Prop(input, "kind")) then Some(input.fields)
    else match mapper.Resolve(input)
      case Some(s) => Some(SpecObject(s))
      case None => None
  }

  /** The keys `buildOptions` copies from the spec when they are truthy. */
  const TruthyKeys: set<string> := {"sound", "crossOrigin", "onFinish", "onError"}
  /** The keys `buildOptions` copies from the spec when they are defined. */
  const DefinedKeys: set<string> := {"volume", "expression", "resetExpression"}

  /** `{ ...(spec.options || {}) }`: the own fields of an options object. */
  function BaseOptions(spec: Fields): Fields {
    var o := Get(spec, "options");
    if o.Obj? then o.fields else map[]
  }

  /** Whether `buildOptions` copies `spec[k]` into the options: the truthy
      keys when truthy, the defined keys when not `undefined`. */
  predicate Copies(spec: Fields, k: string) {
    (k in TruthyKeys && Truthy(Get(spec, k))) || (k in DefinedKeys && Get(spec, k) != Undefined)
  }

  /** The options after the seven conditional copies from the spec, before
      the defaults; the copied keys are distinct, so the order of the copies
      does not matter. */
  function CopiedOptions(spec: Fields): Fields {
    BaseOptions(spec) + map k | k in TruthyKeys + DefinedKeys && k in spec && Copies(spec, k) :: spec[k]
  }

  /** A copied key holds the spec's value; every other key holds the value
      of `spec.options`, or is absent. */
  lemma CopiedOptionsAt(spec: Fields, k: string)
    ensures Copies(spec, k) ==> k in CopiedOptions(spec) && CopiedOptions(spec)[k] == spec[k]
    ensures !Copies(spec, k) ==> Get(CopiedOptions(spec), k) == Get(BaseOptions(spec), k)
  {
  }

  /** `buildOptions(spec, model)`. */
  function BuildOptions(spec: Fields): Fields {
    var opt := CopiedOptions(spec);
    var withReset :=
      if Get(opt, "expression") != Undefined && Get(opt, "resetExpression") == Undefined
      then opt["resetExpression" := Bool(true)] else opt;
    if !Truthy(Get(withReset, "onFinish")) && Get(spec, "group") != Str("Idle")
    then withReset["onFinish" := ReturnToIdle] else withReset
  }

  /** The options carry a defined expression with `resetExpression` true
      unless a defined `resetExpression` was given. */
  lemma BuildOptionsReset(spec: Fields)
    ensures var opt := BuildOptions(spec);
            var copied := CopiedOptions(spec);
            (Get(copied, "expression") != Undefined && Get(copied, "resetExpression") == Undefined ==>
               opt["resetExpression"] == Bool(true)) &&
            (Get(copied, "resetExpression") != Undefined ==> opt["resetExpression"] == copied["resetExpression"]) &&
            (Get(opt, "expression") == Get(copied, "expression"))
    ensures Get(spec, "expression") != Undefined && Get(spec, "resetExpression") == Undefined &&
            Get(BaseOptions(spec), "resetExpression") == Undefined ==>
              Get(BuildOptions(spec), "expression") == spec["expression"] &&
              Get(BuildOptions(spec), "resetExpression") == Bool(true)
  {
  }

  /** Without an `onFinish` of its own, a motion outside the `Idle` group
      returns to `Idle` when it ends; a given `onFinish` is kept. */
  lemma BuildOptionsOnFinish(spec: Fields)
    ensures var opt := BuildOptions(spec);
            var copied := CopiedOptions(spec);
            (Truthy(Get(copied, "onFinish")) ==> opt["onFinish"] == copied["onFinish"]) &&
            (!Truthy(Get(copied, "onFinish")) && Get(spec, "group") != Str("Idle") ==>
               opt["onFinish"] == ReturnToIdle) &&
            (!Truthy(Get(copied, "onFinish")) && Get(spec, "group") == Str("Idle") ==>
               Get(opt, "onFinish") == Get(copied, "onFinish"))
    ensures Truthy(Get(spec, "onFinish")) ==> BuildOptions(spec)["onFinish"] == spec["onFinish"]
  {
  }

  /** Every other option is the copied one. */
  lemma BuildOptionsRest(spec: Fields, k: string)
    requires k != "resetExpression" && k != "onFinish"
    ensures Get(BuildOptions(spec), k) == Get(CopiedOptions(spec), k)
  {
  }

  /** The model calls an action may make. Each is `None` when the model has
      no such function, and otherwise answers with a value or throws. */
  datatype Model = Model(
    hasInternalModel: bool,
    expression: Option<JsValue -> CallResult>,
    setExpression: Option<JsValue -> CallResult>,
    motion: Option<(JsValue, JsValue, JsValue, Fields) -> CallResult>)

  /** `tryCallExpression(model, spec)`: `model.expression(name)`, else the
      expression manager's `setExpression(name)`, else `false`. */
  function TryCallExpression(model: Model, name: JsValue): (r: JsValue)
    ensures model.expression.Some? && model.expression.value(name).Returned? ==>
              r == model.expression.value(name).value
    ensures (model.expression.None? || model.expression.value(name).Threw?) &&
            model.setExpression.Some? && model.setExpression.value(name).Returned? ==>
              r == model.setExpression.value(name).value
    ensures (model.expression.None? || model.expression.value(name).Threw?) &&
            (model.setExpression.None? || model.setExpression.value(name).Threw?) ==>
              r == Bool(false)
  {
    if model.expression.Some? && model.expression.value(name).Returned? then
      model.expression.value(name).value
    else if model.setExpression.Some? && model.setExpression.value(name).Returned? then
      model.setExpression.value(name).value
    else Bool(false)
  }

  /** `spec.priority ?? MotionPriority.NORMAL`. */
  function Priority(spec: Fields): JsValue {
    if Nullish(Get(spec, "priority")) then Num(NORMAL) else spec["priority"]
  }

  /** `{ ok, spec }`; a `None` spec is `null`. */
  datatype Outcome = Outcome(ok: bool, spec: Option<Fields>)

  /** Whether playing a merged spec on a ready model succeeds: the
      expression or motion branch of `act`; any other kind fails. */
  function Play(model: Model, spec: Fields): bool {
    if Get(spec, "kind") == Str("expression") then
      Truthy(TryCallExpression(model, Get(spec, "name")))
    else if Get(spec, "kind") == Str("motion") then
      match model.motion
      case None => false
      case Some(play) =>
        match play(Get(spec, "group"), Get(spec, "indexInGroup"), Priority(spec), BuildOptions(spec))
        case Returned(v) => Truthy(v)
        case Threw => false
    else false
  }

  /** `act(inputOrSpec, extra)`. */
  function Act(mapper: Mapper, model: Model, input: JsValue, extra: Fields): Outcome
    reads mapper
  {
    match NormalizeSpec(mapper, input)
    case None => Outcome(false, None)
    case Some(base) =>
      if !model.hasInternalModel then Outcome(false, Some(base))
      else Outcome(Play(model, base + extra), Some(base + extra))
  }

  /** An unresolved input fails with a `null` spec; a model that is not
      ready fails with the resolved spec; otherwise the spec is the resolved
      one with the `extra` fields laid over it. */
  lemma ActSpec(mapper: Mapper, model: Model, input: JsValue, extra: Fields)
    ensures var r := Act(mapper, model, input, extra);
            var base := NormalizeSpec(mapper, input);
            (base.None? ==> r == Outcome(false, None)) &&
            (base.Some? && !model.hasInternalModel ==> r == Outcome(false, base)) &&
            (base.Some? && model.hasInternalModel ==>
               r.spec.Some? &&
               (forall k :: k in extra ==> k in r.spec.value && r.spec.value[k] == extra[k]) &&
               (forall k :: k in base.value && k !in extra ==> k in r.spec.value && r.spec.value[k] == base.value[k]) &&
               (forall k :: k in r.spec.value ==> k in extra || k in base.value))
  {
  }

  /** The outcome of a ready model: an expression succeeds when the
      expression call answers truthy; a motion succeeds when `model.motion`
      exists, returns and answers truthy; any other kind fails. */
  lemma ActOk(mapper: Mapper, model: Model, input: JsValue, extra: Fields)
    requires NormalizeSpec(mapper, input).Some? && model.hasInternalModel
    ensures var spec := NormalizeSpec(mapper, input).value + extra;
            var ok := Act(mapper, model, input, extra).ok;
            (Get(spec, "kind") == Str("expression") ==>
               ok == Truthy(TryCallExpression(model, Get(spec, "name")))) &&
            (Get(spec, "kind") == Str("motion") ==>
               (ok <==> model.motion.Some? &&
                          var c := model.motion.value(Get(spec, "group"), Get(spec, "indexInGroup"),
                                                      Priority(spec), BuildOptions(spec));
                          c.Returned? && Truthy(c.value))) &&
            (Get(spec, "kind") != Str("expression") && Get(spec, "kind") != Str("motion") ==> !ok)
  {
  }

  /** `list()`: the mode the mapper exported when it was created, its
      expression and flat motion tables, and a copy of its phrase table. */
  datatype Listing = Listing(mode: int, expressions: seq<Expression>,
                             motions: seq<FlatMotion>, nlMap: PhraseTable)

  function List(mapper: Mapper): (r: Listing)
    reads mapper
    ensures r.mode == mapper.exportedMode
    ensures r.expressions == mapper.meta.expressions && r.motions == mapper.meta.flatMotions
    ensures forall k :: Lookup(r.nlMap, k) == Lookup(mapper.nlMap, k)
  {
    Listing(mapper.exportedMode, mapper.meta.expressions, mapper.meta.flatMotions, mapper.GetNLMap())
  }
}

=== FILE: character_manager.dfy ===
/** The registry of the characters on the page, keyed by id in the order
    they were first registered (a JavaScript `Map`). */
module CharacterManager {
  import opened Js
  import opened Ordered

  /** A registered character: its id and the handles it carries (model,
      mapper, action controller, application). */
  datatype Character = Character(id: string, handles: Fields)

  class Manager {
    var chars: Entries<Character>

    /** Ids are distinct, and every entry is filed under its character's id. */
    ghost predicate Valid()
      reads this
    {
      Distinct(chars) && forall i :: 0 <= i < |chars| ==> chars[i].0 == chars[i].1.id
    }

    constructor()
      ensures Valid() && chars == []
    {
      chars := [];
    }

    /** `register(character)`: `chars.set(character.id, character)`. A new
        id goes last; a known id keeps its place and gets the new character. */
    method Register(c: Character)
      requires Valid()
      modifies this
      ensures Valid()
      ensures chars == Put(old(chars), c.id, c)
      ensures Get(c.id) == Some(c)
      ensures forall id :: id != c.id ==> Get(id) == old(Get(id))
      ensures Keys(chars) == if HasKey(old(chars), c.id) then Keys(old(chars)) else Keys(old(chars)) + [c.id]
    {
      PutKeys(chars, c.id, c);
      PutId(chars, c);
      forall id ensures Lookup(Put(chars, c.id, c), id) == if id == c.id then Some(c) else Lookup(chars, id) {
        PutLookup(chars, c.id, c, id);
      }
      chars := Put(chars, c.id, c);
    }

    /** `get(id)`: the character registered under `id`, if any; it carries
        that id. */
    function Get(id: string): (r: Option<Character>)
      reads this
      ensures r.Some? <==> HasKey(chars, id)
      ensures r.Some? && Valid() ==> r.value.id == id
    {
      Lookup(chars, id)
    }

    /** `list()`: one character per registered id, in registration order,
        each the one `get` returns for its id. */
    function List(): (r: seq<Character>)
      requires Valid()
      reads this
      ensures |r| == |chars|
      ensures forall i :: 0 <= i < |r| ==> r[i].id == Keys(chars)[i] && Get(r[i].id) == Some(r[i])
      ensures forall i, j :: 0 <= i < j < |r| ==> r[i].id != r[j].id
    {
      var r := Values(chars);
      assert forall i :: 0 <= i < |r| ==> Get(r[i].id) == Some(r[i]) by {
        forall i | 0 <= i < |r| ensures Get(r[i].id) == Some(r[i]) {
          FindFirst(chars, chars[i].0, i);
        }
      }
      r
    }
  }

  /** `Put` under a character's own id keeps every entry filed under its id. */
  lemma PutId(e: Entries<Character>, c: Character)
    requires forall i :: 0 <= i < |e| ==> e[i].0 == e[i].1.id
    ensures var e' := Put(e, c.id, c); forall i :: 0 <= i < |e'| ==> e'[i].0 == e'[i].1.id
  {
  }

  /** Registering the same character twice leaves the registry as after
      the first time. */
  lemma {:induction false} RegisterIdempotent(e: Entries<Character>, c: Character)
    ensures Put(Put(e, c.id, c), c.id, c) == Put(e, c.id, c)
  {
    match Find(e, c.id)
    case Some(i) =>
      FindFirst(Put(e, c.id, c), c.id, i);
    case None =>
      FindFirst(Put(e, c.id, c), c.id, |e|);
  }
}

=== FILE: dialog.dfy ===
/** Speech-bubble text layout, the typewriter reveal of a bubble, the per-id
    bubble cache and the option and fallback logic of `say`. */
module Dialog {
  import opened Js

  function Min(a: int, b: int): int {
    if a <= b then a else b
  }

  function Max(a: int, b: int): int {
    if a >= b then a else b
  }

  // ---------------------------------------------------------------------
  // wrapText
  // ---------------------------------------------------------------------

  /** The slices `text.slice(i, i + w)` for `i = from, from + w, ...` below `|text|`. */
  function Chunks(text: string, w: nat, from: nat := 0): (r: seq<string>)
    requires w >= 1
    ensures forall k :: 0 <= k < |r| ==> 1 <= |r[k]| <= w
    decreases |text| - from
  {
    if from >= |text| then [] else [text[from..Min(from + w, |text|)]] + Chunks(text, w, from + w)
  }

  /** The lines laid end to end. */
  function Concat(lines: seq<string>): string {
    if lines == [] then "" else lines[0] + Concat(lines[1..])
  }

  /** `lines.join("\n")`. */
  function JoinLines(lines: seq<string>): string {
    if lines == [] then ""
    else if |lines| == 1 then lines[0]
    else lines[0] + "\n" + JoinLines(lines[1..])
  }

  /** `s.replace(/.{0,2}$/, "")`. The search stops at the first position from
      which at most two characters, none a line terminator, reach the end. */
  function DropTail2(s: string): string {
    if |s| >= 1 && IsLineTerminator(s[|s| - 1]) then s
    else if |s| >= 2 && IsLineTerminator(s[|s| - 2]) then s[..|s| - 1]
    else s[..Max(0, |s| - 2)]
  }

  /** The position where the match of `/.{0,2}$/` starts, found the way a
      regular-expression search finds it: the first candidate that works. */
  function TailMatchFrom(s: string, p: nat): (q: nat)
    requires p <= |s|
    ensures p <= q <= |s|
    decreases |s| - p
  {
    if p + 2 >= |s| && forall k :: p <= k < |s| ==> !IsLineTerminator(s[k]) then p
    else TailMatchFrom(s, p + 1)
  }

  /** The case analysis of `DropTail2` is the regular-expression search. */
  lemma DropTail2IsSearch(s: string)
    ensures DropTail2(s) == s[..TailMatchFrom(s, 0)]
  {
    var lo := Max(0, |s| - 2);
    TailMatchSkip(s, 0, lo);
  }

  lemma {:induction false} TailMatchSkip(s: string, p: nat, lo: nat)
    requires p <= lo <= |s| && lo + 2 >= |s| && (lo > 0 ==> lo == |s| - 2)
    ensures TailMatchFrom(s, p) == TailMatchFrom(s, lo)
    ensures TailMatchFrom(s, lo) ==
              if |s| >= 1 && IsLineTerminator(s[|s| - 1]) then |s|
              else if |s| >= 2 && IsLineTerminator(s[|s| - 2]) then |s| - 1
              else lo
    decreases lo - p
  {
    if p < lo {
      assert p + 2 < |s|;
      TailMatchSkip(s, p + 1, lo);
    } else if |s| >= 1 && IsLineTerminator(s[|s| - 1]) {
      if lo < |s| {
        if lo + 1 < |s| {
          assert TailMatchFrom(s, lo + 1) == TailMatchFrom(s, lo + 2);
        }
        assert TailMatchFrom(s, lo) == TailMatchFrom(s, |s| - 1);
      }
    } else if |s| >= 2 && IsLineTerminator(s[|s| - 2]) {
      assert lo == |s| - 2;
      assert TailMatchFrom(s, lo) == TailMatchFrom(s, |s| - 1);
    }
  }

  /** The lines `wrapText` joins: the chunks, stopping at `maxLines` lines
      (at least one), the last of which loses up to two final characters to
      `…` when more text follows. */
  function WrapLines(text: string, w: nat, maxLines: int): seq<string>
    requires w >= 1
  {
    var chunks := Chunks(text, w);
    var n := Max(1, maxLines);
    if |chunks| <= n then chunks
    else chunks[..n - 1] + [DropTail2(chunks[n - 1]) + "…"]
  }

  /** `wrapText(text, maxChars, maxLines)`. */
  method WrapText(text: string, maxChars: nat, maxLines: int) returns (r: string)
    requires maxChars >= 1
    ensures r == JoinLines(WrapLines(text, maxChars, maxLines))
  {
    var lines: seq<string> := [];
    var i: nat := 0;
    while i < |text|
      invariant lines + Chunks(text, maxChars, i) == Chunks(text, maxChars)
      invariant |lines| < Max(1, maxLines)
      decreases |text| - i
    {
      var chunk := text[i..Min(i + maxChars, |text|)];
      ChunksStep(text, maxChars, lines, i);
      lines := lines + [chunk];
      if |lines| >= maxLines {
        if i + maxChars < |text| {
          lines := lines[..|lines| - 1] + [DropTail2(chunk) + "…"];
        }
        WrapStop(text, maxChars, maxLines, lines[..|lines| - 1], i);
        break;
      }
      i := i + maxChars;
    }
    if i >= |text| {
      WrapDone(text, maxChars, maxLines, lines, i);
    }
    r := JoinLines(lines);
  }

  /** Taking one chunk keeps the lines taken so far a prefix of all chunks. */
  lemma ChunksStep(text: string, w: nat, lines: seq<string>, i: nat)
    requires w >= 1 && i < |text| && lines + Chunks(text, w, i) == Chunks(text, w)
    ensures (lines + [text[i..Min(i + w, |text|)]]) + Chunks(text, w, i + w) == Chunks(text, w)
  {
    assert Chunks(text, w, i) == [text[i..Min(i + w, |text|)]] + Chunks(text, w, i + w);
  }

  /** The loop of `wrapText` stops at the line that reaches `maxLines`,
      truncating it when more text follows. */
  lemma WrapStop(text: string, w: nat, maxLines: int, before: seq<string>, i: nat)
    requires w >= 1 && i < |text|
    requires (before + [text[i..Min(i + w, |text|)]]) + Chunks(text, w, i + w) == Chunks(text, w)
    requires |before| < Max(1, maxLines) <= |before| + 1
    ensures WrapLines(text, w, maxLines) ==
              before + [if i + w < |text| then DropTail2(text[i..Min(i + w, |text|)]) + "…"
                        else text[i..Min(i + w, |text|)]]
  {
    var all := Chunks(text, w);
    var chunk := text[i..Min(i + w, |text|)];
    if i + w < |text| {
      assert |all| > |before| + 1;
      assert all[..|before|] == before;
      assert all[|before|] == chunk;
    } else {
      assert all == before + [chunk];
    }
  }

  /** When the loop of `wrapText` runs out of text, all chunks were taken. */
  lemma WrapDone(text: string, w: nat, maxLines: int, lines: seq<string>, i: nat)
    requires w >= 1 && i >= |text|
    requires lines + Chunks(text, w, i) == Chunks(text, w) && |lines| < Max(1, maxLines)
    ensures WrapLines(text, w, maxLines) == lines
  {
    assert Chunks(text, w, i) == [];
  }

  /** The chunks concatenate back to the text they were cut from. */
  lemma {:induction false} ChunksConcat(text: string, w: nat, from: nat)
    requires w >= 1 && from <= |text|
    ensures Concat(Chunks(text, w, from)) == text[from..]
    decreases |text| - from
  {
    if from < |text| {
      var next := Min(from + w, |text|);
      ChunksConcat(text, w, next);
      assert Chunks(text, w, from + w) == Chunks(text, w, next);
      assert text[from..] == text[from..next] + text[next..];
    }
  }

  /** The `k`-th chunk is the `k`-th slice of width `w`. */
  lemma {:induction false} ChunkAt(text: string, w: nat, from: nat, k: nat)
    requires w >= 1 && k < |Chunks(text, w, from)|
    ensures from + k * w < |text|
    ensures Chunks(text, w, from)[k] == text[from + k * w..Min(from + (k + 1) * w, |text|)]
    decreases k
  {
    if k > 0 {
      ChunkAt(text, w, from + w, k - 1);
      assert from + w + (k - 1) * w == from + k * w;
      assert from + w + k * w == from + (k + 1) * w;
    }
  }

  /** There are at most `n` chunks exactly when the text fits in `n` of them. */
  lemma {:induction false} ChunkCount(text: string, w: nat, from: nat, n: nat)
    requires w >= 1
    ensures |Chunks(text, w, from)| <= n <==> |text| <= from + w * n
    decreases n
  {
    if n > 0 && from < |text| {
      ChunkCount(text, w, from + w, n - 1);
      assert from + w + w * (n - 1) == from + w * n;
    }
  }

  lemma WrapEmpty(maxChars: nat, maxLines: int)
    requires maxChars >= 1
    ensures JoinLines(WrapLines("", maxChars, maxLines)) == ""
  {
  }

  /** For positive widths: at most `maxLines` lines (one when `maxLines` is
      not positive), none empty, each at most `maxChars` characters except a
      truncated last line, which gains `…` and may keep one more character
      when the text has a line terminator at its cut. */
  lemma WrapBounds(text: string, maxChars: nat, maxLines: int)
    requires maxChars >= 1
    ensures var lines := WrapLines(text, maxChars, maxLines);
            |lines| <= Max(1, maxLines) &&
            (forall k :: 0 <= k < |lines| ==> 1 <= |lines[k]|) &&
            (forall k :: 0 <= k < |lines| - 1 ==> |lines[k]| <= maxChars) &&
            (lines != [] ==> |lines[|lines| - 1]| <= maxChars + 1)
  {
  }

  /** Without line terminators in the text, every line fits `maxChars`. */
  lemma WrapBoundsPlain(text: string, maxChars: nat, maxLines: int)
    requires maxChars >= 1
    requires forall k :: 0 <= k < |text| ==> !IsLineTerminator(text[k])
    ensures forall line :: line in WrapLines(text, maxChars, maxLines) ==> |line| <= maxChars
  {
    var chunks := Chunks(text, maxChars);
    var n := Max(1, maxLines);
    if |chunks| > n {
      LastLinePlain(text, maxChars, n);
      assert WrapLines(text, maxChars, maxLines) == chunks[..n - 1] + [DropTail2(chunks[n - 1]) + "…"];
    }
  }

  /** The truncated last line of a text without line terminators fits. */
  lemma LastLinePlain(text: string, maxChars: nat, n: nat)
    requires maxChars >= 1 && 1 <= n < |Chunks(text, maxChars)|
    requires forall k :: 0 <= k < |text| ==> !IsLineTerminator(text[k])
    ensures |DropTail2(Chunks(text, maxChars)[n - 1]) + "…"| <= maxChars
  {
    var c := Chunks(text, maxChars)[n - 1];
    ChunkAt(text, maxChars, 0, n - 1);
    var lo := (n - 1) * maxChars;
    assert c == text[lo..lo + |c|];
    forall i | 0 <= i < |c| ensures !IsLineTerminator(c[i]) {
      assert c[i] == text[lo + i];
    }
    DropTail2Plain(c);
  }

  /** Without line terminators, `DropTail2` drops the last two characters
      (or all of a shorter string). */
  lemma DropTail2Plain(c: string)
    requires forall i :: 0 <= i < |c| ==> !IsLineTerminator(c[i])
    ensures DropTail2(c) == c[..Max(0, |c| - 2)]
  {
  }

  /** Text within `maxChars * maxLines` is cut into lines without loss and
      without an ellipsis. */
  lemma WrapWithinCapacity(text: string, maxChars: nat, maxLines: int)
    requires maxChars >= 1 && |text| <= maxChars * Max(1, maxLines)
    ensures WrapLines(text, maxChars, maxLines) == Chunks(text, maxChars)
    ensures Concat(WrapLines(text, maxChars, maxLines)) == text
  {
    ChunkCount(text, maxChars, 0, Max(1, maxLines));
    ChunksConcat(text, maxChars, 0);
  }

  /** Text over capacity gives exactly `maxLines` lines. */
  lemma WrapOverCapacity(text: string, maxChars: nat, maxLines: nat)
    requires maxChars >= 1 && maxLines >= 1 && |text| > maxChars * maxLines
    ensures |WrapLines(text, maxChars, maxLines)| == maxLines
  {
    ChunkCount(text, maxChars, 0, maxLines);
  }

  /** Over capacity, line `k` is the `k`-th slice of width `maxChars`,
      except the last, which drops up to two final characters of its slice
      and ends in `…`. */
  lemma WrapOverCapacityLine(text: string, maxChars: nat, maxLines: nat, k: nat)
    requires maxChars >= 1 && k < maxLines && |text| > maxChars * maxLines
    ensures (k + 1) * maxChars < |text| && |WrapLines(text, maxChars, maxLines)| == maxLines
    ensures WrapLines(text, maxChars, maxLines)[k] ==
              if k < maxLines - 1 then text[k * maxChars..(k + 1) * maxChars]
              else DropTail2(text[k * maxChars..(k + 1) * maxChars]) + "…"
  {
    var lo, hi := k * maxChars, (k + 1) * maxChars;
    assert hi == lo + maxChars;
    MulMono(k + 1, maxLines, maxChars);
    assert hi <= maxChars * maxLines;
    ChunkCount(text, maxChars, 0, maxLines);
    var chunks := Chunks(text, maxChars);
    assert maxLines < |chunks|;
    ChunkAt(text, maxChars, 0, k);
    assert chunks[k] == text[lo..hi];
    WrapLineOf(text, maxChars, maxLines, k);
  }

  /** Over capacity, the lines are the chunks with the last one truncated. */
  lemma WrapLineOf(text: string, w: nat, n: nat, k: nat)
    requires w >= 1 && k < n < |Chunks(text, w)|
    ensures |WrapLines(text, w, n)| == n
    ensures WrapLines(text, w, n)[k] ==
              if k < n - 1 then Chunks(text, w)[k] else DropTail2(Chunks(text, w)[k]) + "…"
  {
  }

  lemma MulMono(a: nat, b: nat, c: nat)
    requires a <= b
    ensures a * c <= b * c
  {
  }

  // ---------------------------------------------------------------------
  // layoutBubbleText
  // ---------------------------------------------------------------------

  /** `Math.max(1, maxChars * maxLines)`. */
  function Capacity(maxChars: nat, maxLines: int): int {
    Max(1, maxChars * maxLines)
  }

  /** The text `layoutBubbleText` hands to `wrapText`: the text itself when it
      fits, otherwise `…` and the last `capacity - 1` (at least one) characters. */
  function FitToCapacity(text: string, maxChars: nat, maxLines: int): string {
    var capacity := Capacity(maxChars, maxLines);
    if |text| <= capacity then text
    else "…" + text[|text| - Max(1, capacity - 1)..]
  }

  /** What `layoutBubbleText(text, maxChars, maxLines)` returns. */
  function BubbleText(text: string, maxChars: nat, maxLines: int): string
    requires maxChars >= 1
  {
    JoinLines(WrapLines(FitToCapacity(text, maxChars, maxLines), maxChars, maxLines))
  }

  /** `layoutBubbleText(text, maxChars, maxLines)`. */
  method LayoutBubbleText(text: string, maxChars: nat, maxLines: int) returns (r: string)
    requires maxChars >= 1
    ensures r == BubbleText(text, maxChars, maxLines)
  {
    var capacity := Capacity(maxChars, maxLines);
    var fitted := text;
    if |text| > capacity {
      fitted := "…" + text[|text| - Max(1, capacity - 1)..];
    }
    assert fitted == FitToCapacity(text, maxChars, maxLines);
    r := WrapText(fitted, maxChars, maxLines);
  }

  lemma BubbleTextEmpty(maxChars: nat, maxLines: int)
    requires maxChars >= 1
    ensures BubbleText("", maxChars, maxLines) == ""
  {
  }

  /** Within capacity the bubble shows `wrapText` of the text. */
  lemma LayoutWithinCapacity(text: string, maxChars: nat, maxLines: int)
    requires maxChars >= 1 && |text| <= Capacity(maxChars, maxLines)
    ensures BubbleText(text, maxChars, maxLines) == JoinLines(WrapLines(text, maxChars, maxLines))
  {
  }

  /** Over a capacity of at least two, the bubble keeps the tail: its lines
      are `…` followed by the last `capacity - 1` characters, cut without a
      trailing ellipsis. */
  lemma LayoutOverCapacity(text: string, maxChars: nat, maxLines: nat)
    requires maxChars >= 1 && maxLines >= 1 && maxChars * maxLines >= 2
    requires |text| > maxChars * maxLines
    ensures var fitted := FitToCapacity(text, maxChars, maxLines);
            WrapLines(fitted, maxChars, maxLines) == Chunks(fitted, maxChars) &&
            Concat(WrapLines(fitted, maxChars, maxLines)) ==
              "…" + text[|text| - (maxChars * maxLines - 1)..]
  {
    var fitted := FitToCapacity(text, maxChars, maxLines);
    assert |fitted| == maxChars * maxLines;
    WrapWithinCapacity(fitted, maxChars, maxLines);
  }

  // ---------------------------------------------------------------------
  // A bubble and its reveal state
  // ---------------------------------------------------------------------

  /** A speech bubble: the text it shows, its layout settings, whether it is
      visible, and the typewriter `reveal` record. */
  class Bubble {
    var shown: string
    var visible: bool
    var fontSize: int
    var maxLines: int
    var maxChars: int
    // the `reveal` record
    var active: bool
    var fullText: string
    var start: int
    var charsPerSec: int
    var lastCount: nat

    /** While a reveal runs, the bubble shows the laid-out prefix of the
        full text that has been revealed so far. */
    ghost predicate Valid()
      reads this
    {
      maxChars >= 1 && lastCount <= |fullText| &&
      (active ==> charsPerSec > 0 && shown == BubbleText(fullText[..lastCount], maxChars, maxLines))
    }

    /** The state of a bubble that was just created: hidden, empty, not
        revealing, with the default settings. */
    ghost predicate Initial()
      reads this
    {
      !active && !visible && shown == "" && fontSize == 18 && maxLines == 3 && maxChars == 14 &&
      fullText == "" && start == 0 && charsPerSec == 8 && lastCount == 0
    }

    constructor ()
      ensures Valid() && Initial()
    {
      shown := "";
      visible := false;
      fontSize := 18;
      maxLines := 3;
      maxChars := 14;
      active := false;
      fullText := "";
      start := 0;
      charsPerSec := 8;
      lastCount := 0;
    }

    /** `setText`: shows the laid-out text at once and stops any reveal. */
    method SetText(txt: string, newFontSize: int, newMaxLines: int, newMaxChars: int)
      requires lastCount <= |fullText| && newMaxChars >= 1
      modifies this
      ensures Valid() && !active
      ensures fontSize == newFontSize && maxLines == newMaxLines && maxChars == newMaxChars
      ensures shown == BubbleText(txt, newMaxChars, newMaxLines)
      ensures fullText == old(fullText) && lastCount == old(lastCount)
      ensures start == old(start) && charsPerSec == old(charsPerSec) && visible == old(visible)
    {
      fontSize := newFontSize;
      maxLines := newMaxLines;
      maxChars := newMaxChars;
      active := false;
      shown := LayoutBubbleText(txt, newMaxChars, newMaxLines);
    }

    /** `animateText`: with a positive speed, starts a reveal of `txt` from
        an empty bubble at time `now`; otherwise behaves as `setText`. */
    method AnimateText(txt: string, newFontSize: int, newMaxLines: int, newMaxChars: int,
                       speed: int, now: int)
      requires Valid() && newMaxChars >= 1
      modifies this
      ensures Valid()
      ensures fontSize == newFontSize && maxLines == newMaxLines && maxChars == newMaxChars
      ensures visible == old(visible)
      ensures speed <= 0 ==> !active && shown == BubbleText(txt, newMaxChars, newMaxLines) &&
                             fullText == old(fullText) && lastCount == old(lastCount) &&
                             start == old(start) && charsPerSec == old(charsPerSec)
      ensures speed > 0 ==> active && fullText == txt && start == now && charsPerSec == speed &&
                            lastCount == 0 && shown == ""
    {
      fontSize := newFontSize;
      maxLines := newMaxLines;
      maxChars := newMaxChars;
      if speed <= 0 {
        SetText(txt, newFontSize, newMaxLines, newMaxChars);
        return;
      }
      active := true;
      fullText := txt;
      start := now;
      charsPerSec := speed;
      lastCount := 0;
      shown := "";
      assert fullText[..0] == "";
      BubbleTextEmpty(maxChars, maxLines);
    }

    /** What `say` does with the bubble once the action is dispatched:
        `animateText` with the requested settings, then make it visible. */
    method Show(txt: string, newFontSize: int, newMaxLines: int, newMaxChars: int,
                speed: int, now: int)
      requires Valid() && newMaxChars >= 1
      modifies this
      ensures Valid() && visible
      ensures fontSize == newFontSize && maxLines == newMaxLines && maxChars == newMaxChars
      ensures speed <= 0 ==> !active && shown == BubbleText(txt, newMaxChars, newMaxLines) &&
                             fullText == old(fullText) && lastCount == old(lastCount) &&
                             start == old(start) && charsPerSec == old(charsPerSec)
      ensures speed > 0 ==> active && fullText == txt && start == now && charsPerSec == speed &&
                            lastCount == 0 && shown == ""
    {
      AnimateText(txt, newFontSize, newMaxLines, newMaxChars, speed, now);
      visible := true;
    }

    /** One ticker callback, given how many characters the elapsed time
        reveals (`Math.floor(elapsed * charsPerSec)`). */
    method Tick(elapsedCount: nat)
      requires Valid()
      modifies this
      ensures Valid()
      ensures !old(active) ==> unchanged(this)
      ensures old(active) ==> lastCount == Min(|fullText|, elapsedCount)
      ensures old(active) ==> shown == BubbleText(fullText[..lastCount], maxChars, maxLines)
      ensures old(active) && lastCount == old(lastCount) ==> shown == old(shown)
      ensures old(active) ==> (active <==> lastCount < |fullText|)
      ensures fullText == old(fullText) && maxChars == old(maxChars) && maxLines == old(maxLines)
      ensures fontSize == old(fontSize) && charsPerSec == old(charsPerSec)
      ensures start == old(start) && visible == old(visible)
    {
      if !active {
        return;
      }
      var count := Min(|fullText|, elapsedCount);
      if count != lastCount {
        lastCount := count;
        shown := LayoutBubbleText(fullText[..count], maxChars, maxLines);
      }
      if count >= |fullText| {
        active := false;
      }
    }
  }

  // ---------------------------------------------------------------------
  // say
  // ---------------------------------------------------------------------

  /** The options of `say` once its destructuring defaults are applied. */
  datatype Request = Request(id: JsValue, text: string, audioUrl: JsValue, motion: JsValue,
                             expression: JsValue, charsPerSec: int, fontSize: int,
                             maxLines: int, maxCharsPerLine: int, priority: JsValue)

  /** `motion ?? text`. */
  function MotionInput(req: Request): (r: JsValue)
    ensures Nullish(req.motion) ==> r == Str(req.text)
    ensures !Nullish(req.motion) ==> r == req.motion
  {
    if Nullish(req.motion) then Str(req.text) else req.motion
  }

  /** The `extra` options `say` hands to the action controller. */
  function Extra(req: Request): (r: Fields)
    ensures "sound" in r <==> Truthy(req.audioUrl)
    ensures "crossOrigin" in r <==> Truthy(req.audioUrl)
    ensures "priority" in r <==> req.priority != Undefined
    ensures "expression" in r <==> req.expression != Undefined
    ensures "resetExpression" in r <==> req.expression != Undefined
    ensures "sound" in r ==> r["sound"] == req.audioUrl && r["crossOrigin"] == Str("anonymous")
    ensures "priority" in r ==> r["priority"] == req.priority
    ensures "expression" in r ==> r["expression"] == req.expression &&
                                  r["resetExpression"] == Bool(true)
    ensures r.Keys <= {"sound", "crossOrigin", "priority", "expression", "resetExpression"}
  {
    var e0: Fields := map[];
    var e1 := if Truthy(req.audioUrl) then e0["sound" := req.audioUrl]["crossOrigin" := Str("anonymous")] else e0;
    var e2 := if req.priority != Undefined then e1["priority" := req.priority] else e1;
    if req.expression != Undefined then e2["expression" := req.expression]["resetExpression" := Bool(true)]
    else e2
  }

  /** The controller calls `say` may dispatch to: `actWithAudio` when the
      controller has one, otherwise `act`. Either answers or throws. */
  datatype Controller = Controller(
    actWithAudio: Option<(JsValue, JsValue, JsValue, Fields) -> CallResult>,
    act: (JsValue, JsValue, Fields) -> CallResult)

  /** The character model's `motion(group, index, priority, options)`, when
      the model has one. */
  type MotionCall = Option<(string, int, int, JsValue) -> CallResult>

  const NotOk: JsValue := Obj(map["ok" := Bool(false), "spec" := Null])

  /** `{ ok: true, spec: { kind: "motion", group: "", indexInGroup: 0 } }`. */
  const FallbackOk: JsValue :=
    Obj(map["ok" := Bool(true),
            "spec" := Obj(map["kind" := Str("motion"), "group" := Str(""), "indexInGroup" := Num(0)])])

  /** The options of the fallback motion: the sound, when `extra` has one. */
  function FallbackOptions(extra: Fields): JsValue {
    if Truthy(Get(extra, "sound")) then
      Obj(map["sound" := extra["sound"], "crossOrigin" := Str("anonymous")])
    else Undefined
  }

  /** The controller call `say` makes. */
  function Dispatch(req: Request, controller: Controller): CallResult {
    match controller.actWithAudio
    case Some(f) => f(req.id, MotionInput(req), req.audioUrl, Extra(req))
    case None => controller.act(req.id, MotionInput(req), Extra(req))
  }

  /** Whether the fallback motion, the first motion of group `""` at normal
      priority, plays without throwing. */
  predicate FallbackPlays(req: Request, motion: MotionCall) {
    motion.Some? && motion.value("", 0, 2, FallbackOptions(Extra(req))).Returned?
  }

  /** The result of dispatching `say`'s action: an exception of the
      controller escapes; otherwise the controller's result, or the fixed ok
      result when that does not report ok and the fallback motion plays. */
  function SayResult(req: Request, controller: Controller, motion: MotionCall): CallResult
  {
    match Dispatch(req, controller)
    case Threw => Threw
    case Returned(res) =>
      if !Truthy(Prop(res, "ok")) && FallbackPlays(req, motion) then Returned(FallbackOk)
      else Returned(res)
  }

  /** An exception of the controller is the outcome of `say`; otherwise the
      controller's result stands when it reports ok, the fallback is tried
      when it does not, and the result reports ok exactly when either
      succeeded. */
  lemma SayResultOk(req: Request, controller: Controller, motion: MotionCall)
    ensures Dispatch(req, controller).Threw? <==> SayResult(req, controller, motion).Threw?
    ensures var d := Dispatch(req, controller);
            var r := SayResult(req, controller, motion);
            d.Returned? ==>
              (Truthy(Prop(d.value, "ok")) ==> r == d) &&
              (!Truthy(Prop(d.value, "ok")) && FallbackPlays(req, motion) ==> r == Returned(FallbackOk)) &&
              (!Truthy(Prop(d.value, "ok")) && !FallbackPlays(req, motion) ==> r == d) &&
              (Truthy(Prop(r.value, "ok")) <==> Truthy(Prop(d.value, "ok")) || FallbackPlays(req, motion))
  {
  }

  /** The fallback motion carries the audio exactly when `say` was given one. */
  lemma FallbackSound(req: Request)
    ensures Truthy(req.audioUrl) ==>
              FallbackOptions(Extra(req)) == Obj(map["sound" := req.audioUrl, "crossOrigin" := Str("anonymous")])
    ensures !Truthy(req.audioUrl) ==> FallbackOptions(Extra(req)) == Undefined
  {
  }

  /** The dialogue API: the bubbles created so far, one per character id. */
  class Dialogue {
    var bubbles: map<JsValue, Bubble>

    ghost predicate Valid()
      reads this, bubbles.Values
    {
      forall b :: b in bubbles.Values ==> b.Valid()
    }

    constructor ()
      ensures Valid() && bubbles == map[]
    {
      bubbles := map[];
    }

    /** `getBubble(id)`: the cached bubble, or a new one cached for a
        character that has a model, or none. */
    method GetBubble(id: JsValue, hasModel: bool) returns (b: Option<Bubble>)
      requires Valid()
      modifies this
      ensures Valid()
      ensures id in old(bubbles) ==> b == Some(old(bubbles)[id]) && bubbles == old(bubbles)
      ensures id !in old(bubbles) && hasModel ==>
                b.Some? && fresh(b.value) && b.value.Initial() && bubbles == old(bubbles)[id := b.value]
      ensures id !in old(bubbles) && !hasModel ==> b.None? && bubbles == old(bubbles)
      ensures b.Some? ==> b.value.Valid() && id in bubbles && bubbles[id] == b.value
    {
      if id in bubbles {
        return Some(bubbles[id]);
      }
      if !hasModel {
        return None;
      }
      var bubble := new Bubble();
      bubbles := bubbles[id := bubble];
      return Some(bubble);
    }

    /** `say(req)`: without a bubble or a model, `{ ok: false, spec: null }`;
        otherwise dispatches the action and, unless the controller threw,
        starts the reveal of the text at `revealCps` characters per second
        (the requested speed when that is zero) and shows the bubble. Only
        the bubble of `req.id` changes. */
    method Say(req: Request, hasModel: bool, controller: Controller, motion: MotionCall,
               revealCps: int, now: int) returns (res: CallResult)
      requires Valid() && req.maxCharsPerLine >= 1
      modifies this, bubbles.Values
      ensures Valid()
      ensures !hasModel ==> res == Returned(NotOk) && bubbles == old(bubbles)
      ensures hasModel ==> res == SayResult(req, controller, motion)
      ensures hasModel && req.id in old(bubbles) ==> bubbles == old(bubbles)
      ensures hasModel && req.id !in old(bubbles) ==>
                req.id in bubbles && fresh(bubbles[req.id]) && bubbles == old(bubbles)[req.id := bubbles[req.id]]
      ensures forall b :: b in old(bubbles).Values && (!hasModel || res.Threw? || b != bubbles[req.id]) ==>
                unchanged(b)
      ensures hasModel && res.Threw? && req.id !in old(bubbles) ==>
                bubbles[req.id].Initial()
      ensures hasModel && res.Returned? ==>
                var b := bubbles[req.id];
                b.visible && b.maxChars == req.maxCharsPerLine &&
                b.maxLines == req.maxLines && b.fontSize == req.fontSize
      ensures hasModel && res.Returned? ==>
                var speed := if revealCps != 0 then revealCps else req.charsPerSec;
                var b := bubbles[req.id];
                (speed > 0 ==> b.active && b.fullText == req.text && b.shown == "" &&
                               b.start == now && b.charsPerSec == speed && b.lastCount == 0) &&
                (speed <= 0 ==> !b.active && b.shown == BubbleText(req.text, req.maxCharsPerLine, req.maxLines))
      ensures hasModel && res.Returned? && req.id in old(bubbles) ==>
                var speed := if revealCps != 0 then revealCps else req.charsPerSec;
                var b := bubbles[req.id];
                speed <= 0 ==> b.fullText == old(b.fullText) && b.start == old(b.start) &&
                               b.charsPerSec == old(b.charsPerSec) && b.lastCount == old(b.lastCount)
      ensures hasModel && res.Returned? && req.id !in old(bubbles) ==>
                var speed := if revealCps != 0 then revealCps else req.charsPerSec;
                var b := bubbles[req.id];
                speed <= 0 ==> b.fullText == "" && b.start == 0 && b.charsPerSec == 8 && b.lastCount == 0
    {
      var bubble := GetBubble(req.id, hasModel);
      if bubble.None? || !hasModel {
        return Returned(NotOk);
      }
      res := SayResult(req, controller, motion);
      if res.Threw? {
        return;
      }
      var b := bubble.value;
      var speed := if revealCps != 0 then revealCps else req.charsPerSec;
      b.Show(req.text, req.fontSize, req.maxLines, req.maxCharsPerLine, speed, now);
    }
  }
}

=== FILE: js.dfy ===
/** The JavaScript values and string primitives that the core relies on.
    Strings are sequences of `char`, one per UTF-16 code unit, which covers
    text without surrogate pairs (the Basic Multilingual Plane); numbers are
    modelled as integers. */
module Js {

  datatype Option<+T> = None | Some(value: T) {
    function GetOr(default: T): T {
      match this
      case Some(v) => v
      case None => default
    }
  }

  /** A JavaScript value. Objects are string-keyed records; a function value
      is identified by a name that stands for its source text. */
  datatype JsValue =
    | Undefined
    | Null
    | Bool(b: bool)
    | Num(n: int)
    | Str(s: string)
    | Obj(fields: map<string, JsValue>)
    | Fn(name: string)

  type Fields = map<string, JsValue>

  /** Outcome of a call into code outside the model: a value, or an exception. */
  datatype CallResult = Returned(value: JsValue) | Threw

  predicate Truthy(v: JsValue) {
    match v
    case Undefined => false
    case Null => false
    case Bool(b) => b
    case Num(n) => n != 0
    case Str(s) => s != ""
    case Obj(_) => true
    case Fn(_) => true
  }

  predicate Nullish(v: JsValue) {
    v.Undefined? || v.Null?
  }

  /** Property read `o.k`: a missing property reads as undefined. */
  function Get(o: Fields, k: string): JsValue {
    if k in o then o[k] else Undefined
  }

  /** Property read on an arbitrary value (`v?.k`). */
  function Prop(v: JsValue, k: string): JsValue {
    if v.Obj? then Get(v.fields, k) else Undefined
  }

  function DigitChar(d: nat): char
    requires d < 10
  {
    "0123456789"[d]
  }

  function NatToString(n: nat): (s: string)
    ensures |s| >= 1
    ensures forall i :: 0 <= i < |s| ==> IsDigit(s[i])
    decreases n
  {
    if n < 10 then [DigitChar(n)] else NatToString(n / 10) + [DigitChar(n % 10)]
  }

  /** `String(v)`. */
  function ToJsString(v: JsValue): string {
    match v
    case Undefined => "undefined"
    case Null => "null"
    case Bool(b) => if b then "true" else "false"
    case Num(n) => if n < 0 then "-" + NatToString(-n) else NatToString(n)
    case Str(s) => s
    case Obj(_) => "[object Object]"
    case Fn(name) => name
  }

  /** `String(v || "")`. */
  function StringOrEmpty(v: JsValue): string {
    if Truthy(v) then ToJsString(v) else ""
  }

  /** `String(v ?? "")`. */
  function StringOrEmptyIfNullish(v: JsValue): string {
    if Nullish(v) then "" else ToJsString(v)
  }

  // ---------------------------------------------------------------------
  // Whitespace and trimming
  // ---------------------------------------------------------------------

  /** The characters JavaScript's `trim` removes and `\s` matches:
      WhiteSpace and LineTerminator of ECMAScript. */
  predicate IsSpace(c: char) {
    c == '\t' || c == '\n' || c == '\U{000B}' || c == '\U{000C}' || c == '\r' ||
    c == ' ' || c == '\U{00A0}' || c == '\U{1680}' || ('\U{2000}' <= c <= '\U{200A}') ||
    c == '\U{2028}' || c == '\U{2029}' || c == '\U{202F}' || c == '\U{205F}' ||
    c == '\U{3000}' || c == '\U{FEFF}'
  }

  /** The characters `.` in a regular expression does not match. */
  predicate IsLineTerminator(c: char) {
    c == '\n' || c == '\r' || c == '\U{2028}' || c == '\U{2029}'
  }

  predicate AllSpace(s: string) {
    forall i :: 0 <= i < |s| ==> IsSpace(s[i])
  }

  /** The first position at or after `from` that holds no whitespace (or `|s|`). */
  function SpaceRunEnd(s: string, from: nat): (i: nat)
    requires from <= |s|
    ensures from <= i <= |s| && (i < |s| ==> !IsSpace(s[i]))
    decreases |s| - from
  {
    if from == |s| || !IsSpace(s[from]) then from else SpaceRunEnd(s, from + 1)
  }

  /** Everything `SpaceRunEnd` skips is whitespace. */
  lemma {:induction false} SpaceRunEndSkipsSpace(s: string, from: nat)
    requires from <= |s|
    ensures forall k :: from <= k < SpaceRunEnd(s, from) ==> IsSpace(s[k])
    decreases |s| - from
  {
    if from < |s| && IsSpace(s[from]) {
      SpaceRunEndSkipsSpace(s, from + 1);
    }
  }

  /** Moving back from `end`, no further than `lo`: where the trailing
      whitespace of `s[lo..end]` begins. */
  function SpaceRunStart(s: string, lo: nat, end: nat): (j: nat)
    requires lo <= end <= |s|
    ensures lo <= j <= end && (j > lo ==> !IsSpace(s[j - 1]))
    ensures forall k :: j <= k < end ==> IsSpace(s[k])
    decreases end - lo
  {
    if end == lo || !IsSpace(s[end - 1]) then end else SpaceRunStart(s, lo, end - 1)
  }

  /** `s.trim()`: what remains after cutting the whitespace at both ends. */
  function Trim(s: string): (r: string)
    ensures |r| <= |s|
    ensures r == [] || (!IsSpace(r[0]) && !IsSpace(r[|r| - 1]))
  {
    var i := SpaceRunEnd(s, 0);
    s[i..SpaceRunStart(s, i, |s|)]
  }

  /** Trimming keeps an infix of the input and cuts only whitespace. */
  lemma TrimIsInfix(s: string) returns (i: nat)
    ensures i + |Trim(s)| <= |s| && Trim(s) == s[i..i + |Trim(s)|]
    ensures AllSpace(s[..i]) && AllSpace(s[i + |Trim(s)|..])
  {
    i := SpaceRunEnd(s, 0);
    SpaceRunEndSkipsSpace(s, 0);
    var j := SpaceRunStart(s, i, |s|);
    assert forall k :: 0 <= k < i ==> s[..i][k] == s[k];
    assert forall k :: 0 <= k < |s| - j ==> s[j..][k] == s[j + k];
  }

  lemma {:induction false} TrimEmptyIffAllSpace(s: string)
    ensures Trim(s) == [] <==> AllSpace(s)
  {
    var i := TrimIsInfix(s);
    if Trim(s) == [] {
      forall k | 0 <= k < |s| ensures IsSpace(s[k]) {
        if k < i {
          assert s[..i][k] == s[k];
        } else {
          assert s[i..][k - i] == s[k];
        }
      }
    }
  }

  lemma TrimOfTrimmed(s: string)
    requires s == [] || (!IsSpace(s[0]) && !IsSpace(s[|s| - 1]))
    ensures Trim(s) == s
  {
    assert SpaceRunEnd(s, 0) == 0;
  }

  lemma TrimIdempotent(s: string)
    ensures Trim(Trim(s)) == Trim(s)
  {
    TrimOfTrimmed(Trim(s));
  }

  // ---------------------------------------------------------------------
  // Searching
  // ---------------------------------------------------------------------

  predicate OccursAt(s: string, pat: string, i: int) {
    0 <= i && i + |pat| <= |s| && s[i..i + |pat|] == pat
  }

  /** `s.indexOf(pat)`, as an option: the first position where `pat` occurs. */
  function IndexOf(s: string, pat: string, from: nat := 0): (r: Option<nat>)
    ensures r.Some? ==> from <= r.value && r.value + |pat| <= |s|
    decreases |s| - from
  {
    if from + |pat| > |s| then None
    else if s[from..from + |pat|] == pat then Some(from)
    else IndexOf(s, pat, from + 1)
  }

  /** `IndexOf` finds the first occurrence at or after `from`, and finds one
      whenever there is one. */
  lemma {:induction false} IndexOfFirst(s: string, pat: string, from: nat)
    ensures IndexOf(s, pat, from).Some? ==>
              from <= IndexOf(s, pat, from).value && OccursAt(s, pat, IndexOf(s, pat, from).value)
    ensures IndexOf(s, pat, from).Some? ==>
              forall j :: from <= j < IndexOf(s, pat, from).value ==> !OccursAt(s, pat, j)
    ensures IndexOf(s, pat, from).None? ==> forall j :: from <= j ==> !OccursAt(s, pat, j)
    decreases |s| - from
  {
    if from + |pat| <= |s| && s[from..from + |pat|] != pat {
      IndexOfFirst(s, pat, from + 1);
    }
  }

  /** `s.includes(pat)`. */
  predicate Includes(s: string, pat: string) {
    IndexOf(s, pat).Some?
  }

  lemma IncludesIff(s: string, pat: string)
    ensures Includes(s, pat) <==> exists i :: OccursAt(s, pat, i)
  {
    IndexOfFirst(s, pat, 0);
  }

  /** `s.replace(pat, "")` with a string pattern: removes the first occurrence. */
  function RemoveFirst(s: string, pat: string): string {
    match IndexOf(s, pat)
    case None => s
    case Some(i) => s[..i] + s[i + |pat|..]
  }

  /** `toLowerCase` for the ASCII letters. */
  function LowerChar(c: char): char {
    if 'A' <= c <= 'Z' then (c as int - 'A' as int + 'a' as int) as char else c
  }

  function ToLower(s: string): (r: string)
    ensures |r| == |s| && forall i :: 0 <= i < |s| ==> r[i] == LowerChar(s[i])
  {
    seq(|s|, i requires 0 <= i < |s| => LowerChar(s[i]))
  }

  /** A string without upper-case ASCII letters is its own lower case. */
  lemma ToLowerNoUpper(s: string)
    requires forall i :: 0 <= i < |s| ==> !('A' <= s[i] <= 'Z')
    ensures ToLower(s) == s
  {
  }

  predicate IsDigit(c: char) {
    '0' <= c <= '9'
  }

  predicate AllDigits(s: string) {
    forall i :: 0 <= i < |s| ==> IsDigit(s[i])
  }

  /** The value of a run of decimal digits (leading zeros allowed). */
  function DecimalValue(s: string): nat
    requires AllDigits(s)
  {
    if s == [] then 0
    else 10 * DecimalValue(s[..|s| - 1]) + (s[|s| - 1] as int - '0' as int)
  }

  lemma {:induction false} DecimalValueOfNatToString(n: nat)
    ensures DecimalValue(NatToString(n)) == n
  {
    var s := NatToString(n);
    if n >= 10 {
      DecimalValueOfNatToString(n / 10);
      assert s[..|s| - 1] == NatToString(n / 10);
    }
  }

  /** `Number(v)` for the values the model represents; `None` is NaN.
      Numeric strings are recognised in plain decimal form only. */
  function ToNumber(v: JsValue): (r: Option<int>)
    ensures v.Num? ==> r == Some(v.n)
    ensures v.Undefined? ==> r.None?
  {
    match v
    case Undefined => None
    case Null => Some(0)
    case Bool(b) => Some(if b then 1 else 0)
    case Num(n) => Some(n)
    case Str(s) =>
      var t := Trim(s);
      if t == [] then Some(0)
      else if AllDigits(t) then Some(DecimalValue(t))
      else None
    case Obj(_) => None
    case Fn(_) => None
  }

  lemma DigitsToNumber(s: string)
    requires s != [] && AllDigits(s)
    ensures ToNumber(Str(s)) == Some(DecimalValue(s))
  {
    TrimOfTrimmed(s);
  }
}

=== FILE: mapping.dfy ===
/** The phrase/action mapper of one character model: the model's expressions
    and grouped motions flattened into 0-based tables, manual resolution by
    1-based index (`expression 3`, `motion 5`), natural-language resolution
    through a phrase table, and the mapper instance that owns that table. */
module Mapping {
  import opened Js
  import opened Ordered

  /** A phrase-table entry `{ kind, name }`. */
  datatype Rule = Rule(kind: JsValue, name: JsValue)

  type PhraseTable = Entries<Rule>

  // ---------------------------------------------------------------------
  // fileBaseName
  // ---------------------------------------------------------------------

  /** The position of the last '/' before `end`, if any. */
  function LastSlash(path: string, end: nat): (r: Option<nat>)
    requires end <= |path|
    ensures r.Some? ==> r.value < end && path[r.value] == '/'
    ensures r.Some? ==> forall k :: r.value < k < end ==> path[k] != '/'
    ensures r.None? ==> forall k :: 0 <= k < end ==> path[k] != '/'
    decreases end
  {
    if end == 0 then None
    else if path[end - 1] == '/' then Some(end - 1)
    else LastSlash(path, end - 1)
  }

  /** `path.split("/").pop() || ""`: what follows the last `/`. */
  function LastSegment(path: string): (r: string)
    ensures '/' !in r
  {
    match LastSlash(path, |path|)
    case Some(i) => path[i + 1..]
    case None => path
  }

  /** `fileBaseName(path)`: the last path segment with the first `.motion3.json`
      and then the first `.json` removed. */
  function FileBaseName(path: string): string {
    RemoveFirst(RemoveFirst(LastSegment(path), ".motion3.json"), ".json")
  }

  /** The last segment of `dir/name` is `name` when `name` has no '/'. */
  lemma LastSegmentAfterSlash(dir: string, name: string)
    requires '/' !in name
    ensures LastSegment(dir + "/" + name) == name
  {
    var p := dir + "/" + name;
    assert forall k :: |dir| < k < |p| ==> p[k] == name[k - |dir| - 1];
    assert p[|dir|] == '/';
    assert p[|dir| + 1..] == name;
  }

  /** A pattern that starts with '.' cannot occur inside a part without '.'. */
  lemma DotPatternNotBefore(b: string, t: string, pat: string, j: int)
    requires '.' !in b && pat != [] && pat[0] == '.' && OccursAt(b + t, pat, j)
    ensures j >= |b|
  {
  }

  /** `.motion3.json` is cut from `<base>.motion3.json` and `.json` from
      `<base>.json`; each pattern occurs in neither the other file name nor
      the bare base name. */
  lemma ExtensionsRemoved(base: string)
    requires '.' !in base
    ensures RemoveFirst(base + ".motion3.json", ".motion3.json") == base
    ensures RemoveFirst(base + ".json", ".motion3.json") == base + ".json"
    ensures RemoveFirst(base + ".json", ".json") == base
    ensures RemoveFirst(base, ".json") == base
  {
    SuffixFound(base, ".motion3.json");
    SuffixFound(base, ".json");
    var js := base + ".json";
    IndexOfFirst(js, ".motion3.json", 0);
    IndexOfFirst(base, ".json", 0);
    if IndexOf(js, ".motion3.json").Some? {
      DotPatternNotBefore(base, ".json", ".motion3.json", IndexOf(js, ".motion3.json").value);
    }
    if IndexOf(base, ".json").Some? {
      assert base + [] == base;
      DotPatternNotBefore(base, [], ".json", IndexOf(base, ".json").value);
    }
  }

  /** A dotted suffix is found right after a base without '.'. */
  lemma SuffixFound(base: string, ext: string)
    requires '.' !in base && ext != [] && ext[0] == '.'
    ensures IndexOf(base + ext, ext) == Some(|base|)
    ensures RemoveFirst(base + ext, ext) == base
  {
    var m := base + ext;
    assert OccursAt(m, ext, |base|) by { assert m[|base|..|base| + |ext|] == ext; }
    IndexOfFirst(m, ext, 0);
    DotPatternNotBefore(base, ext, ext, IndexOf(m, ext).value);
    assert m[..|base|] == base;
  }

  /** `motions/special_01.motion3.json` becomes `special_01`: for any folder and
      any base name without '/' or '.', the folder and the extension go. */
  lemma FileBaseNameOfMotionFile(dir: string, base: string)
    requires '/' !in base && '.' !in base
    ensures FileBaseName(dir + "/" + base + ".motion3.json") == base
    ensures FileBaseName(base + ".json") == base
    ensures FileBaseName(dir + "/" + base) == base
  {
    FileBaseNameMotion(dir, base);
    FileBaseNameJson(base);
    FileBaseNameBare(dir, base);
  }

  lemma FileBaseNameMotion(dir: string, base: string)
    requires '/' !in base && '.' !in base
    ensures FileBaseName(dir + "/" + base + ".motion3.json") == base
  {
    var m := base + ".motion3.json";
    SuffixFound(base, ".motion3.json");
    PatternAbsent(base, ".json");
    assert dir + "/" + base + ".motion3.json" == dir + "/" + m;
    LastSegmentAfterSlash(dir, m);
  }

  lemma FileBaseNameJson(base: string)
    requires '/' !in base && '.' !in base
    ensures FileBaseName(base + ".json") == base
  {
    ExtensionsRemoved(base);
    LastSegmentNoSlash(base + ".json");
  }

  lemma FileBaseNameBare(dir: string, base: string)
    requires '/' !in base && '.' !in base
    ensures FileBaseName(dir + "/" + base) == base
  {
    LastSegmentAfterSlash(dir, base);
    PatternAbsent(base, ".motion3.json");
    PatternAbsent(base, ".json");
  }

  /** A dotted pattern is not found in a name without '.'. */
  lemma PatternAbsent(base: string, pat: string)
    requires '.' !in base && pat != [] && pat[0] == '.'
    ensures RemoveFirst(base, pat) == base
  {
    IndexOfFirst(base, pat, 0);
  }

  lemma LastSegmentNoSlash(s: string)
    requires '/' !in s
    ensures LastSegment(s) == s
  {
  }

  // ---------------------------------------------------------------------
  // parseModelConfig
  // ---------------------------------------------------------------------

  datatype ExpressionRef = ExpressionRef(name: string, file: string)
  datatype MotionRef = MotionRef(file: string)

  /** The motion groups in key order; a group's list may be missing. */
  type MotionGroups = seq<(string, Option<seq<MotionRef>>)>

  datatype FileReferences = FileReferences(expressions: Option<seq<ExpressionRef>>,
                                           motions: Option<MotionGroups>)

  /** The parts of a `model3.json` the mapper reads. */
  datatype ModelJson = ModelJson(fileReferences: Option<FileReferences>)

  datatype Expression = Expression(index: nat, name: string, file: string)
  datatype Motion = Motion(group: string, indexInGroup: nat, name: string, file: string)
  datatype FlatMotion = FlatMotion(group: string, indexInGroup: nat, name: string, file: string,
                                   flatIndex: nat)

  datatype Meta = Meta(expressions: seq<Expression>,
                       flatMotions: seq<FlatMotion>,
                       motionByName: map<string, FlatMotion>,
                       expressionByFlatIndex: map<int, Expression>,
                       motionByFlatIndex: map<int, FlatMotion>)

  function ExpressionRefsOf(config: ModelJson): seq<ExpressionRef> {
    match config.fileReferences
    case None => []
    case Some(fr) => fr.expressions.GetOr([])
  }

  function GroupsOf(config: ModelJson): MotionGroups {
    match config.fileReferences
    case None => []
    case Some(fr) => fr.motions.GetOr([])
  }

  function GroupSize(g: (string, Option<seq<MotionRef>>)): nat {
    |g.1.GetOr([])|
  }

  /** The motions of one group, numbered within the group. */
  function GroupMotions(g: (string, Option<seq<MotionRef>>)): seq<Motion> {
    var refs := g.1.GetOr([]);
    seq(|refs|, j requires 0 <= j < |refs| =>
      Motion(g.0, j, FileBaseName(refs[j].file), refs[j].file))
  }

  /** The groups' motions one after another, in group order. */
  function Flatten(gs: MotionGroups): seq<Motion> {
    if gs == [] then [] else Flatten(gs[..|gs| - 1]) + GroupMotions(gs[|gs| - 1])
  }

  function TotalSize(gs: MotionGroups): nat {
    if gs == [] then 0 else TotalSize(gs[..|gs| - 1]) + GroupSize(gs[|gs| - 1])
  }

  /** Each motion's position in the flat list. */
  function Indexed(ms: seq<Motion>): seq<FlatMotion> {
    seq(|ms|, i requires 0 <= i < |ms| =>
      FlatMotion(ms[i].group, ms[i].indexInGroup, ms[i].name, ms[i].file, i))
  }

  /** `motionByName`: each name mapped to the motion set last under it. */
  function LastByName(fs: seq<FlatMotion>): map<string, FlatMotion> {
    if fs == [] then map[]
    else LastByName(fs[..|fs| - 1])[fs[|fs| - 1].name := fs[|fs| - 1]]
  }

  function ByPosition<T>(xs: seq<T>): map<int, T> {
    map i | 0 <= i < |xs| :: xs[i]
  }

  /** How the five parts of a parsed model configuration fit together. */
  ghost predicate WellFormed(meta: Meta) {
    (forall i :: 0 <= i < |meta.expressions| ==> meta.expressions[i].index == i) &&
    (forall i :: 0 <= i < |meta.flatMotions| ==> meta.flatMotions[i].flatIndex == i) &&
    meta.expressionByFlatIndex == ByPosition(meta.expressions) &&
    meta.motionByFlatIndex == ByPosition(meta.flatMotions) &&
    meta.motionByName == LastByName(meta.flatMotions)
  }

  /** `parseModelConfig(modelJson)`. */
  method ParseModelConfig(config: ModelJson) returns (meta: Meta)
    ensures WellFormed(meta)
    ensures |meta.expressions| == |ExpressionRefsOf(config)|
    ensures forall i :: 0 <= i < |meta.expressions| ==>
              meta.expressions[i].name == ExpressionRefsOf(config)[i].name &&
              meta.expressions[i].file == ExpressionRefsOf(config)[i].file
    ensures meta.flatMotions == Indexed(Flatten(GroupsOf(config)))
  {
    var refs := ExpressionRefsOf(config);
    var expressions := seq(|refs|, i requires 0 <= i < |refs| =>
      Expression(i, refs[i].name, refs[i].file));
    var motions := CollectMotions(GroupsOf(config));
    var flatMotions := Indexed(motions);
    var motionByName := IndexByName(flatMotions);
    var expressionByFlatIndex := IndexExpressions(expressions);
    var motionByFlatIndex := IndexMotions(flatMotions);
    meta := Meta(expressions, flatMotions, motionByName, expressionByFlatIndex, motionByFlatIndex);
  }

  /** The nested loop over the groups and their motions. */
  method CollectMotions(groups: MotionGroups) returns (motions: seq<Motion>)
    ensures motions == Flatten(groups)
  {
    motions := [];
    var g := 0;
    while g < |groups|
      invariant 0 <= g <= |groups|
      invariant motions == Flatten(groups[..g])
    {
      var arr := groups[g].1.GetOr([]);
      var idx := 0;
      while idx < |arr|
        invariant 0 <= idx <= |arr|
        invariant motions == Flatten(groups[..g]) + GroupMotions(groups[g])[..idx]
      {
        GroupMotionsStep(groups[g], idx);
        motions := motions + [Motion(groups[g].0, idx, FileBaseName(arr[idx].file), arr[idx].file)];
        idx := idx + 1;
      }
      FlattenStep(groups, g);
      g := g + 1;
    }
    assert groups[..g] == groups;
  }

  lemma GroupMotionsStep(g: (string, Option<seq<MotionRef>>), idx: nat)
    requires idx < GroupSize(g)
    ensures GroupMotions(g)[..idx + 1] ==
              GroupMotions(g)[..idx] +
              [Motion(g.0, idx, FileBaseName(g.1.GetOr([])[idx].file), g.1.GetOr([])[idx].file)]
  {
    var ms := GroupMotions(g);
    assert ms[idx] == Motion(g.0, idx, FileBaseName(g.1.GetOr([])[idx].file), g.1.GetOr([])[idx].file);
    PrefixStep(ms, idx);
  }

  lemma PrefixStep<T>(s: seq<T>, i: nat)
    requires i < |s|
    ensures s[..i + 1] == s[..i] + [s[i]]
  {
  }

  lemma FlattenStep(groups: MotionGroups, g: nat)
    requires g < |groups|
    ensures Flatten(groups[..g + 1]) == Flatten(groups[..g]) + GroupMotions(groups[g])
    ensures GroupMotions(groups[g])[..GroupSize(groups[g])] == GroupMotions(groups[g])
  {
    assert groups[..g + 1][..g] == groups[..g];
  }

  /** The loop filling `motionByName`; a later motion overwrites an earlier
      one with the same name. */
  method IndexByName(flatMotions: seq<FlatMotion>) returns (byName: map<string, FlatMotion>)
    ensures byName == LastByName(flatMotions)
  {
    byName := map[];
    var i := 0;
    while i < |flatMotions|
      invariant 0 <= i <= |flatMotions|
      invariant byName == LastByName(flatMotions[..i])
    {
      assert flatMotions[..i + 1][..i] == flatMotions[..i];
      byName := byName[flatMotions[i].name := flatMotions[i]];
      i := i + 1;
    }
    assert flatMotions[..i] == flatMotions;
  }

  /** The loop filling `expressionByFlatIndex`. */
  method IndexExpressions(expressions: seq<Expression>) returns (byIndex: map<int, Expression>)
    requires forall i :: 0 <= i < |expressions| ==> expressions[i].index == i
    ensures byIndex == ByPosition(expressions)
  {
    byIndex := map[];
    var i := 0;
    while i < |expressions|
      invariant 0 <= i <= |expressions|
      invariant byIndex == ByPosition(expressions[..i])
    {
      byIndex := byIndex[expressions[i].index := expressions[i]];
      i := i + 1;
    }
    assert expressions[..i] == expressions;
  }

  /** The loop filling `motionByFlatIndex`. */
  method IndexMotions(flatMotions: seq<FlatMotion>) returns (byIndex: map<int, FlatMotion>)
    requires forall i :: 0 <= i < |flatMotions| ==> flatMotions[i].flatIndex == i
    ensures byIndex == ByPosition(flatMotions)
  {
    byIndex := map[];
    var i := 0;
    while i < |flatMotions|
      invariant 0 <= i <= |flatMotions|
      invariant byIndex == ByPosition(flatMotions[..i])
    {
      byIndex := byIndex[flatMotions[i].flatIndex := flatMotions[i]];
      i := i + 1;
    }
    assert flatMotions[..i] == flatMotions;
  }

  /** The flat list holds as many motions as the groups hold together. */
  lemma {:induction false} FlattenSize(gs: MotionGroups)
    ensures |Flatten(gs)| == TotalSize(gs)
    decreases |gs|
  {
    if gs != [] {
      FlattenSize(gs[..|gs| - 1]);
    }
  }

  /** Motion `j` of group `g` sits right after the motions of the groups
      before `g`, with its group name and its position within the group. */
  lemma {:induction false} FlattenAt(gs: MotionGroups, g: nat, j: nat)
    requires g < |gs| && j < GroupSize(gs[g])
    ensures TotalSize(gs[..g]) + j < |Flatten(gs)|
    ensures Flatten(gs)[TotalSize(gs[..g]) + j] == GroupMotions(gs[g])[j]
    decreases |gs|
  {
    var init := gs[..|gs| - 1];
    FlattenSize(init);
    assert Flatten(gs) == Flatten(init) + GroupMotions(gs[|gs| - 1]);
    if g < |gs| - 1 {
      assert gs[..g] == init[..g];
      assert gs[g] == init[g];
      FlattenAt(init, g, j);
    } else {
      assert gs[..g] == init;
    }
  }

  /** `motionByName` has exactly the names of the flat motions, and maps each
      one to the last motion that carries it. */
  lemma {:induction false} LastByNameSpec(fs: seq<FlatMotion>, i: nat)
    requires i < |fs|
    requires forall j :: i < j < |fs| ==> fs[j].name != fs[i].name
    ensures fs[i].name in LastByName(fs) && LastByName(fs)[fs[i].name] == fs[i]
    decreases |fs|
  {
    if i < |fs| - 1 {
      LastByNameSpec(fs[..|fs| - 1], i);
    }
  }

  lemma {:induction false} LastByNameKeys(fs: seq<FlatMotion>, name: string)
    ensures name in LastByName(fs) <==> exists i :: 0 <= i < |fs| && fs[i].name == name
    decreases |fs|
  {
    if fs != [] {
      var init := fs[..|fs| - 1];
      LastByNameKeys(init, name);
      if exists i :: 0 <= i < |init| && init[i].name == name {
        var i :| 0 <= i < |init| && init[i].name == name;
        assert fs[i].name == name;
      }
      if exists i :: 0 <= i < |fs| && fs[i].name == name {
        var i :| 0 <= i < |fs| && fs[i].name == name;
        if i < |init| {
          assert init[i].name == name;
        }
      }
    }
  }

  // ---------------------------------------------------------------------
  // Specs and index resolution
  // ---------------------------------------------------------------------

  /** The uniform action description the mapper hands out. */
  datatype Spec =
    | ExpressionSpec(name: JsValue)
    | MotionSpec(motionName: string, group: string, indexInGroup: nat, flatIndex: nat)

  function MotionSpecOf(m: FlatMotion): Spec {
    MotionSpec(m.name, m.group, m.indexInGroup, m.flatIndex)
  }

  /** The spec as the JavaScript object the mapper returns. */
  function SpecObject(s: Spec): (o: Fields)
    ensures Truthy(Get(o, "kind"))
  {
    match s
    case ExpressionSpec(name) => map["kind" := Str("expression"), "name" := name]
    case MotionSpec(name, group, indexInGroup, flatIndex) =>
      map["kind" := Str("motion"), "name" := Str(name), "group" := Str(group),
          "indexInGroup" := Num(indexInGroup), "flatIndex" := Num(flatIndex)]
  }

  /** `toExpressionSpecByIndex1(index1)`. */
  function ToExpressionSpecByIndex1(meta: Meta, index1: int): Option<Spec> {
    if index1 - 1 in meta.expressionByFlatIndex
    then Some(ExpressionSpec(Str(meta.expressionByFlatIndex[index1 - 1].name)))
    else None
  }

  /** `toMotionSpecByIndex1(index1)`. */
  function ToMotionSpecByIndex1(meta: Meta, index1: int): Option<Spec> {
    if index1 - 1 in meta.motionByFlatIndex
    then Some(MotionSpecOf(meta.motionByFlatIndex[index1 - 1]))
    else None
  }

  /** Index lookups are 1-based: `index1` in 1..n selects element `index1 - 1`,
      anything else selects nothing. */
  lemma SpecByIndex1(meta: Meta, index1: int)
    requires WellFormed(meta)
    ensures ToExpressionSpecByIndex1(meta, index1) ==
              if 1 <= index1 <= |meta.expressions|
              then Some(ExpressionSpec(Str(meta.expressions[index1 - 1].name))) else None
    ensures ToMotionSpecByIndex1(meta, index1) ==
              if 1 <= index1 <= |meta.flatMotions|
              then Some(MotionSpec(meta.flatMotions[index1 - 1].name,
                                   meta.flatMotions[index1 - 1].group,
                                   meta.flatMotions[index1 - 1].indexInGroup,
                                   index1 - 1))
              else None
  {
  }

  // ---------------------------------------------------------------------
  // resolveManual
  // ---------------------------------------------------------------------

  /** The first position at or after `from` where `p` holds of the character
      (or `|s|`). */
  function NextSpace(s: string, from: nat): (j: nat)
    requires from <= |s|
    ensures from <= j <= |s| && (j < |s| ==> IsSpace(s[j]))
    ensures forall k :: from <= k < j ==> !IsSpace(s[k])
    decreases |s| - from
  {
    if from == |s| || IsSpace(s[from]) then from else NextSpace(s, from + 1)
  }

  function NextNonSpace(s: string, from: nat): (j: nat)
    requires from <= |s|
    ensures from <= j <= |s| && (j < |s| ==> !IsSpace(s[j]))
    ensures forall k :: from <= k < j ==> IsSpace(s[k])
    decreases |s| - from
  {
    if from == |s| || !IsSpace(s[from]) then from else NextNonSpace(s, from + 1)
  }

  /** `parts[0]` of `t.split(/\s+/)` for a trimmed `t`. */
  function FirstPart(t: string): string {
    t[..NextSpace(t, 0)]
  }

  /** `parts[1]` of `t.split(/\s+/)` for a trimmed `t`; `None` when absent. */
  function SecondPart(t: string): Option<string> {
    var e := NextSpace(t, 0);
    if e == |t| then None
    else
      var b := NextNonSpace(t, e);
      Some(t[b..NextSpace(t, b)])
  }

  /** The lowercased type and the numeric index read from a manual command:
      a string `"<type> <index>"` or an object `{ type, index }`. */
  function ManualTypeAndIndex(input: JsValue): (string, Option<int>) {
    match input
    case Str(s) =>
      var t := Trim(s);
      (ToLower(FirstPart(t)),
       ToNumber(match SecondPart(t) case Some(p) => Str(p) case None => Undefined))
    case Obj(f) =>
      var ty := Get(f, "type");
      (if ty.Str? then ToLower(ty.s) else "", ToNumber(Get(f, "index")))
    case _ => ("", None)
  }

  /** `resolveManual(input)`. */
  function ResolveManual(meta: Meta, input: JsValue): Option<Spec> {
    var (ty, index) := ManualTypeAndIndex(input);
    ResolveTyped(meta, ty, index)
  }

  /** The tail of `resolveManual`, once the type and the index are known. */
  function ResolveTyped(meta: Meta, ty: string, index: Option<int>): Option<Spec> {
    if ty == [] || index.None? || index.value < 1 then None
    else if ty == "expression" then ToExpressionSpecByIndex1(meta, index.value)
    else if ty == "motion" then ToMotionSpecByIndex1(meta, index.value)
    else None
  }

  /** Manual resolution succeeds exactly when the type is `expression` or
      `motion` (already lowercased), the index is a number at least 1 and in
      range, and then it yields that element. */
  lemma ResolveManualSpec(meta: Meta, ty: string, index: Option<int>)
    requires WellFormed(meta)
    ensures ResolveTyped(meta, ty, index) ==
              if index.None? || index.value < 1 then None
              else if ty == "expression" && index.value <= |meta.expressions|
              then Some(ExpressionSpec(Str(meta.expressions[index.value - 1].name)))
              else if ty == "motion" && index.value <= |meta.flatMotions|
              then Some(MotionSpecOf(meta.flatMotions[index.value - 1]))
              else None
  {
    if index.Some? {
      SpecByIndex1(meta, index.value);
    }
  }

  /** The object form reads its type case-insensitively and its index as a
      number. */
  lemma ManualObjectForm(ty: string, index: JsValue)
    ensures ManualTypeAndIndex(Obj(map["type" := Str(ty), "index" := index])) ==
              (ToLower(ty), ToNumber(index))
  {
  }

  /** The text form `"<type> <digits>"` reads the lowercased first word and
      the number the second word spells. */
  lemma {:induction false} ManualTextForm(ty: string, digits: string)
    requires ty != [] && digits != [] && AllDigits(digits)
    requires forall k :: 0 <= k < |ty| ==> !IsSpace(ty[k])
    ensures ManualTypeAndIndex(Str(ty + " " + digits)) == (ToLower(ty), Some(DecimalValue(digits)))
  {
    var s := ty + " " + digits;
    assert !IsSpace(s[0]) && !IsSpace(s[|s| - 1]) by { assert s[|s| - 1] == digits[|digits| - 1]; }
    TrimOfTrimmed(s);
    SplitWords(s, ty, digits);
    DigitsToNumber(digits);
    calc {
      ManualTypeAndIndex(Str(s));
      (ToLower(FirstPart(s)), ToNumber(Str(digits)));
      (ToLower(ty), Some(DecimalValue(digits)));
    }
  }

  lemma SplitWords(s: string, ty: string, digits: string)
    requires s == ty + " " + digits && digits != [] && AllDigits(digits)
    requires forall k :: 0 <= k < |ty| ==> !IsSpace(ty[k])
    ensures FirstPart(s) == ty && SecondPart(s) == Some(digits)
  {
    forall k | 0 <= k < |ty| ensures !IsSpace(s[k]) { assert s[k] == ty[k]; }
    NextSpaceIs(s, 0, |ty|);
    assert NextNonSpace(s, |ty|) == |ty| + 1;
    forall k | |ty| + 1 <= k < |s| ensures !IsSpace(s[k]) { assert s[k] == digits[k - |ty| - 1]; }
    NextSpaceIs(s, |ty| + 1, |s|);
    assert s[|ty| + 1..|s|] == digits;
  }

  /** `"<type> <digits>"` and `{ type, index }` resolve alike. */
  lemma ManualTextMatchesObject(meta: Meta, ty: string, digits: string)
    requires ty != [] && digits != [] && AllDigits(digits)
    requires forall k :: 0 <= k < |ty| ==> !IsSpace(ty[k])
    ensures ResolveManual(meta, Str(ty + " " + digits)) ==
            ResolveManual(meta, Obj(map["type" := Str(ty), "index" := Num(DecimalValue(digits))]))
  {
    ManualTextForm(ty, digits);
    ManualObjectForm(ty, Num(DecimalValue(digits)));
  }

  lemma NextSpaceIs(s: string, from: nat, j: nat)
    requires from <= j <= |s| && (j < |s| ==> IsSpace(s[j]))
    requires forall k :: from <= k < j ==> !IsSpace(s[k])
    ensures NextSpace(s, from) == j
  {
  }

  // ---------------------------------------------------------------------
  // resolveNatural
  // ---------------------------------------------------------------------

  /** What a rule gives: a spec, a definite null (a motion rule whose name is
      unknown), or nothing (a rule of another kind: keep looking). */
  datatype RuleOutcome = Hit(spec: Spec) | Stop | Skip

  function RuleResult(meta: Meta, rule: Rule): RuleOutcome {
    if rule.kind == Str("expression") then Hit(ExpressionSpec(rule.name))
    else if rule.kind == Str("motion") then
      if rule.name.Str? && rule.name.s in meta.motionByName
      then Hit(MotionSpecOf(meta.motionByName[rule.name.s]))
      else Stop
    else Skip
  }

  function AsResult(o: RuleOutcome): Option<Spec> {
    if o.Hit? then Some(o.spec) else None
  }

  /** The `for (const k of Object.keys(nlMap))` fallback: the first key the
      input contains whose rule is of a known kind decides. */
  function ScanContains(meta: Meta, table: PhraseTable, key: string, from: nat): Option<Spec>
    requires from <= |table|
    decreases |table| - from
  {
    if from == |table| then None
    else if Includes(key, table[from].0) && !RuleResult(meta, table[from].1).Skip?
    then AsResult(RuleResult(meta, table[from].1))
    else ScanContains(meta, table, key, from + 1)
  }

  /** The key `resolveNatural` looks up: `String(text || "").trim()`. */
  function NaturalKey(text: JsValue): string {
    Trim(StringOrEmpty(text))
  }

  /** `resolveNatural(text)`. */
  function ResolveNatural(meta: Meta, table: PhraseTable, text: JsValue): Option<Spec> {
    var key := NaturalKey(text);
    if key == [] then None
    else
      var exact := Lookup(table, key);
      if exact.Some? && !RuleResult(meta, exact.value).Skip?
      then AsResult(RuleResult(meta, exact.value))
      else ScanContains(meta, table, key, 0)
  }

  /** Entry `i` decides the substring fallback for `key`. */
  predicate Decides(meta: Meta, table: PhraseTable, key: string, i: int) {
    0 <= i < |table| && Includes(key, table[i].0) && !RuleResult(meta, table[i].1).Skip?
  }

  lemma {:induction false} ScanFirst(meta: Meta, table: PhraseTable, key: string, from: nat, i: nat)
    requires from <= i && Decides(meta, table, key, i)
    requires forall j :: from <= j < i ==> !Decides(meta, table, key, j)
    ensures ScanContains(meta, table, key, from) == AsResult(RuleResult(meta, table[i].1))
    decreases i - from
  {
    if from < i {
      assert !Decides(meta, table, key, from);
      assert ScanContains(meta, table, key, from) == ScanContains(meta, table, key, from + 1);
      ScanFirst(meta, table, key, from + 1, i);
    } else {
      assert ScanContains(meta, table, key, from) == AsResult(RuleResult(meta, table[i].1));
    }
  }

  lemma {:induction false} ScanNone(meta: Meta, table: PhraseTable, key: string, from: nat)
    requires from <= |table|
    requires forall j :: from <= j < |table| ==> !Decides(meta, table, key, j)
    ensures ScanContains(meta, table, key, from) == None
    decreases |table| - from
  {
    if from < |table| {
      assert !Decides(meta, table, key, from);
      ScanNone(meta, table, key, from + 1);
    } else {
      assert ScanContains(meta, table, key, from) == None;
    }
  }

  /** The exact key decides when its rule is of a known kind. */
  predicate ExactDecides(meta: Meta, table: PhraseTable, key: string) {
    Lookup(table, key).Some? && !RuleResult(meta, Lookup(table, key).value).Skip?
  }

  /** Natural resolution, first step: blank input gives null, and an exact key
      whose rule has a known kind gives that rule's result. */
  lemma ResolveNaturalExact(meta: Meta, table: PhraseTable, text: JsValue)
    ensures NaturalKey(text) == [] ==> ResolveNatural(meta, table, text) == None
    ensures NaturalKey(text) != [] && ExactDecides(meta, table, NaturalKey(text)) ==>
              ResolveNatural(meta, table, text) ==
                AsResult(RuleResult(meta, Lookup(table, NaturalKey(text)).value))
  {
  }

  /** Natural resolution, fallback: otherwise the first key in table order that
      the input contains and whose rule has a known kind decides (a motion rule
      whose motion is unknown gives null without trying later keys). */
  lemma ResolveNaturalFirstContained(meta: Meta, table: PhraseTable, text: JsValue, i: nat)
    requires NaturalKey(text) != [] && !ExactDecides(meta, table, NaturalKey(text))
    requires Decides(meta, table, NaturalKey(text), i)
    requires forall j :: 0 <= j < i ==> !Decides(meta, table, NaturalKey(text), j)
    ensures ResolveNatural(meta, table, text) == AsResult(RuleResult(meta, table[i].1))
  {
    ScanFirst(meta, table, NaturalKey(text), 0, i);
  }

  /** Natural resolution gives null when neither the exact key nor any
      contained key decides. */
  lemma ResolveNaturalNone(meta: Meta, table: PhraseTable, text: JsValue)
    requires !ExactDecides(meta, table, NaturalKey(text))
    requires forall j :: 0 <= j < |table| ==> !Decides(meta, table, NaturalKey(text), j)
    ensures ResolveNatural(meta, table, text) == None
  {
    ScanNone(meta, table, NaturalKey(text), 0);
  }

  // ---------------------------------------------------------------------
  // Binding phrases
  // ---------------------------------------------------------------------

  /** The table key `bindPhrase` uses: `String(phrase || "").trim()`. */
  function PhraseKey(phrase: JsValue): string {
    Trim(StringOrEmpty(phrase))
  }

  predicate KnownKind(spec: JsValue) {
    Prop(spec, "kind") == Str("expression") || Prop(spec, "kind") == Str("motion")
  }

  /** `bindPhrase` succeeds: a non-blank phrase and a spec of a known kind. */
  predicate BindAccepted(phrase: JsValue, spec: JsValue) {
    PhraseKey(phrase) != [] && KnownKind(spec)
  }

  function RuleFor(spec: JsValue): Rule {
    Rule(Prop(spec, "kind"), Prop(spec, "name"))
  }

  function BindOne(table: PhraseTable, phrase: JsValue, spec: JsValue): PhraseTable {
    if BindAccepted(phrase, spec) then Put(table, PhraseKey(phrase), RuleFor(spec)) else table
  }

  /** The table after binding each phrase in turn. */
  function BindAll(table: PhraseTable, phrases: seq<JsValue>, spec: JsValue): PhraseTable {
    if phrases == [] then table
    else BindOne(BindAll(table, phrases[..|phrases| - 1], spec), phrases[|phrases| - 1], spec)
  }

  predicate IsComma(c: char) { c == ',' || c == '\U{FF0C}' }

  /** `s.split(/[，,]/)`. */
  function SplitCommas(s: string): (parts: seq<string>)
    ensures |parts| >= 1
    ensures forall p :: p in parts ==> forall k :: 0 <= k < |p| ==> !IsComma(p[k])
    decreases |s|
  {
    if s == [] then [[]]
    else
      var rest := SplitCommas(s[..|s| - 1]);
      if IsComma(s[|s| - 1]) then rest + [[]]
      else rest[..|rest| - 1] + [rest[|rest| - 1] + [s[|s| - 1]]]
  }

  /** `.map((s) => s.trim()).filter(Boolean)`. */
  function TrimmedNonEmpty(parts: seq<string>): (r: seq<string>)
    ensures forall p :: p in r ==> p != [] && Trim(p) == p
  {
    if parts == [] then []
    else
      var rest := TrimmedNonEmpty(parts[..|parts| - 1]);
      var t := Trim(parts[|parts| - 1]);
      TrimIdempotent(parts[|parts| - 1]);
      if t == [] then rest else rest + [t]
  }

  /** The argument of `bindPhrases`: an array, or anything else (read as a
      comma-separated string). */
  datatype Phrases = PhraseArray(items: seq<JsValue>) | PhraseText(value: JsValue)

  function PhraseList(phrases: Phrases): seq<JsValue> {
    match phrases
    case PhraseArray(items) => items
    case PhraseText(v) =>
      var ps := TrimmedNonEmpty(SplitCommas(StringOrEmpty(v)));
      seq(|ps|, i requires 0 <= i < |ps| => Str(ps[i]))
  }

  /** Binding a text of comma-separated phrases succeeds exactly when the spec
      has a known kind and the text holds at least one non-blank phrase. */
  lemma PhraseTextAccepted(v: JsValue, spec: JsValue)
    ensures var ps := PhraseList(PhraseText(v));
            (exists i :: 0 <= i < |ps| && BindAccepted(ps[i], spec)) <==>
              KnownKind(spec) && ps != []
  {
    PhraseTextKeys(v);
    AcceptedAmong(PhraseList(PhraseText(v)), spec);
  }

  /** Every phrase cut from a text has a non-blank key. */
  lemma PhraseTextKeys(v: JsValue)
    ensures var ps := PhraseList(PhraseText(v));
            forall i :: 0 <= i < |ps| ==> PhraseKey(ps[i]) != []
  {
    var parts := TrimmedNonEmpty(SplitCommas(StringOrEmpty(v)));
    var ps := PhraseList(PhraseText(v));
    forall i | 0 <= i < |ps| ensures PhraseKey(ps[i]) != [] {
      assert parts[i] in parts;
      assert ps[i] == Str(parts[i]);
    }
  }

  /** Among phrases with non-blank keys, one is accepted exactly when there
      is a phrase and the kind is known. */
  lemma AcceptedAmong(ps: seq<JsValue>, spec: JsValue)
    requires forall i :: 0 <= i < |ps| ==> PhraseKey(ps[i]) != []
    ensures (exists i :: 0 <= i < |ps| && BindAccepted(ps[i], spec)) <==> KnownKind(spec) && ps != []
  {
    if KnownKind(spec) && ps != [] {
      assert BindAccepted(ps[0], spec);
    }
  }

  /** After binding one phrase, its key reads as the spec's rule and every
      other key reads as before; a rejected phrase changes nothing. */
  lemma BindOneLookup(table: PhraseTable, phrase: JsValue, spec: JsValue, k: string)
    ensures Lookup(BindOne(table, phrase, spec), k) ==
              if BindAccepted(phrase, spec) && k == PhraseKey(phrase) then Some(RuleFor(spec))
              else Lookup(table, k)
  {
    if BindAccepted(phrase, spec) {
      PutLookup(table, PhraseKey(phrase), RuleFor(spec), k);
    }
  }

  lemma BindAllStep(table: PhraseTable, phrases: seq<JsValue>, i: nat, spec: JsValue)
    requires i < |phrases|
    ensures BindAll(table, phrases[..i + 1], spec) ==
              BindOne(BindAll(table, phrases[..i], spec), phrases[i], spec)
  {
    assert phrases[..i + 1][..i] == phrases[..i];
  }

  /** One of the first `i` phrases is accepted. */
  predicate AcceptedBefore(phrases: seq<JsValue>, i: int, spec: JsValue) {
    exists j :: 0 <= j < i && j < |phrases| && BindAccepted(phrases[j], spec)
  }

  lemma AcceptedBeforeStep(phrases: seq<JsValue>, i: nat, spec: JsValue)
    requires i < |phrases|
    ensures AcceptedBefore(phrases, i + 1, spec) <==>
              AcceptedBefore(phrases, i, spec) || BindAccepted(phrases[i], spec)
  {
  }

  /** Binding with a spec of unknown kind changes nothing. */
  lemma {:induction false} BindAllUnknownKind(table: PhraseTable, phrases: seq<JsValue>, spec: JsValue)
    requires !KnownKind(spec)
    ensures BindAll(table, phrases, spec) == table
    decreases |phrases|
  {
    if phrases != [] {
      BindAllUnknownKind(table, phrases[..|phrases| - 1], spec);
    }
  }

  /** Binding keeps the keys distinct. */
  lemma {:induction false} BindAllDistinct(table: PhraseTable, phrases: seq<JsValue>, spec: JsValue)
    requires Distinct(table)
    ensures Distinct(BindAll(table, phrases, spec))
    decreases |phrases|
  {
    if phrases != [] {
      var t := BindAll(table, phrases[..|phrases| - 1], spec);
      BindAllDistinct(table, phrases[..|phrases| - 1], spec);
      PutKeys(t, PhraseKey(phrases[|phrases| - 1]), RuleFor(spec));
    }
  }

  // ---------------------------------------------------------------------
  // The mapper instance
  // ---------------------------------------------------------------------

  /** What `initMapping` returns. `mode` is the closure variable that
      `setMode` reassigns and `resolve` reads; `exportedMode` is the `mode`
      property of the returned object, copied once at creation. */
  class Mapper {
    const modelJsonUrl: string
    const meta: Meta
    const persist: bool
    const exportedMode: int
    var mode: int
    var nlMap: PhraseTable
    /** The table last written to local storage, if any. */
    ghost var saved: Option<PhraseTable>

    /** The phrase table never holds a key twice. */
    ghost predicate Valid()
      reads this
    {
      Distinct(nlMap)
    }

    /** `initMapping(...)` once the model JSON has been fetched and the
        persisted table (when `persist` is set) has been loaded. */
    constructor (modelJsonUrl: string, config: ModelJson, mode: int,
                 initialNLMap: Option<PhraseTable>, persist: bool, persisted: PhraseTable)
      requires Distinct(persisted)
      requires initialNLMap.Some? ==> Distinct(initialNLMap.value)
      ensures Valid() && WellFormed(meta)
      ensures this.modelJsonUrl == modelJsonUrl && this.persist == persist
      ensures this.mode == mode && exportedMode == mode
      ensures meta.flatMotions == Indexed(Flatten(GroupsOf(config)))
      ensures |meta.expressions| == |ExpressionRefsOf(config)|
      ensures nlMap == Merge(if persist then persisted else [], initialNLMap.GetOr([]))
      ensures forall k :: Lookup(nlMap, k) ==
                if HasKey(initialNLMap.GetOr([]), k) then Lookup(initialNLMap.GetOr([]), k)
                else if persist then Lookup(persisted, k) else None
      ensures saved == None
    {
      var parsed := ParseModelConfig(config);
      var base: PhraseTable := if persist then persisted else [];
      var initial := initialNLMap.GetOr([]);
      this.modelJsonUrl := modelJsonUrl;
      this.meta := parsed;
      this.persist := persist;
      this.exportedMode := mode;
      this.mode := mode;
      this.nlMap := Merge(base, initial);
      this.saved := None;
      new;
      MergeDistinct(base, initial);
      forall k ensures Lookup(nlMap, k) ==
                if HasKey(initial, k) then Lookup(initial, k)
                else if persist then Lookup(persisted, k) else None
      {
        MergeLookup(base, initial, k);
      }
    }

    /** `resolve(input)`: manual resolution in mode 1, natural otherwise. */
    function Resolve(input: JsValue): (r: Option<Spec>)
      reads this
      ensures mode == 1 ==> r == ResolveManual(meta, input)
      ensures mode != 1 ==> r == ResolveNatural(meta, nlMap, input)
    {
      if mode == 1 then ResolveManual(meta, input) else ResolveNatural(meta, nlMap, input)
    }

    /** `setMode(newMode)`: 2 selects natural language, anything else manual. */
    method SetMode(newMode: JsValue)
      modifies this`mode
      ensures mode == (if newMode == Num(2) then 2 else 1)
      ensures mode == 1 || mode == 2
    {
      mode := if newMode == Num(2) then 2 else 1;
    }

    /** `getNLMap()`: a copy of the current table. */
    function GetNLMap(): (r: PhraseTable)
      reads this
      ensures forall k :: Lookup(r, k) == Lookup(nlMap, k)
      ensures Valid() ==> Distinct(r)
    {
      nlMap
    }

    /** `bindPhrase(phrase, spec)`. */
    method BindPhrase(phrase: JsValue, spec: JsValue) returns (ok: bool)
      requires Valid()
      modifies this`nlMap, this`saved
      ensures Valid()
      ensures ok == BindAccepted(phrase, spec)
      ensures nlMap == BindOne(old(nlMap), phrase, spec)
      ensures saved == if ok && persist then Some(nlMap) else old(saved)
    {
      var p := Trim(StringOrEmpty(phrase));
      var kind := Prop(spec, "kind");
      if p == [] || !Truthy(kind) || (kind != Str("expression") && kind != Str("motion")) {
        return false;
      }
      PutKeys(nlMap, p, RuleFor(spec));
      nlMap := Put(nlMap, p, Rule(kind, Prop(spec, "name")));
      if persist {
        saved := Some(nlMap);
      }
      ok := true;
    }

    /** `bindPhrases(phrases, spec)`: every phrase is attempted; the result
        says whether at least one was bound. */
    method BindPhrases(phrases: Phrases, spec: JsValue) returns (ok: bool)
      requires Valid()
      modifies this`nlMap, this`saved
      ensures Valid()
      ensures nlMap == BindAll(old(nlMap), PhraseList(phrases), spec)
      ensures ok <==> exists i :: 0 <= i < |PhraseList(phrases)| &&
                                 BindAccepted(PhraseList(phrases)[i], spec)
      ensures saved == if ok && persist then Some(nlMap) else old(saved)
    {
      ok := BindEach(PhraseList(phrases), spec);
    }

    /** The loop of `bindPhrases` over the normalised list, without stopping
        at the first failure. */
    method BindEach(arr: seq<JsValue>, spec: JsValue) returns (ok: bool)
      requires Valid()
      modifies this`nlMap, this`saved
      ensures Valid()
      ensures nlMap == BindAll(old(nlMap), arr, spec)
      ensures ok <==> exists i :: 0 <= i < |arr| && BindAccepted(arr[i], spec)
      ensures saved == if ok && persist then Some(nlMap) else old(saved)
    {
      ok := false;
      var i := 0;
      while i < |arr|
        invariant 0 <= i <= |arr|
        invariant Valid()
        invariant nlMap == BindAll(old(nlMap), arr[..i], spec)
        invariant ok == AcceptedBefore(arr, i, spec)
        invariant saved == if ok && persist then Some(nlMap) else old(saved)
      {
        BindAllStep(old(nlMap), arr, i, spec);
        AcceptedBeforeStep(arr, i, spec);
        var bound := BindPhrase(arr[i], spec);
        ok := bound || ok;
        i := i + 1;
      }
      assert arr[..i] == arr;
    }
  }
}

=== FILE: ordered.dfy ===
/** An insertion-ordered table with string keys. A JavaScript plain object
    (whose keys are not integer-like) and a JavaScript `Map` behave alike:
    assigning to a new key appends it, assigning to an existing key replaces
    its value where it stands, and iteration follows insertion order. */
module Ordered {
  import opened Js

  type Entries<V> = seq<(string, V)>

  function Keys<V>(e: Entries<V>): seq<string> {
    seq(|e|, i requires 0 <= i < |e| => e[i].0)
  }

  function Values<V>(e: Entries<V>): seq<V> {
    seq(|e|, i requires 0 <= i < |e| => e[i].1)
  }

  /** No key appears twice. */
  predicate Distinct<V>(e: Entries<V>) {
    forall i, j :: 0 <= i < j < |e| ==> e[i].0 != e[j].0
  }

  predicate HasKey<V>(e: Entries<V>, k: string) {
    exists i :: 0 <= i < |e| && e[i].0 == k
  }

  /** The position of the first entry with key `k`. */
  function Find<V>(e: Entries<V>, k: string, from: nat := 0): (r: Option<nat>)
    requires from <= |e|
    ensures r.Some? ==> from <= r.value < |e| && e[r.value].0 == k
    ensures r.Some? ==> forall j :: from <= j < r.value ==> e[j].0 != k
    ensures r.None? ==> forall j :: from <= j < |e| ==> e[j].0 != k
    decreases |e| - from
  {
    if from == |e| then None
    else if e[from].0 == k then Some(from)
    else Find(e, k, from + 1)
  }

  /** `obj[k]` / `map.get(k)`: the value bound to `k`, if any. */
  function Lookup<V>(e: Entries<V>, k: string): (r: Option<V>)
    ensures r.Some? <==> HasKey(e, k)
  {
    match Find(e, k)
    case Some(i) => Some(e[i].1)
    case None => None
  }

  /** `obj[k] = v` / `map.set(k, v)`. */
  function Put<V>(e: Entries<V>, k: string, v: V): Entries<V> {
    match Find(e, k)
    case Some(i) => e[i := (k, v)]
    case None => e + [(k, v)]
  }

  /** `Find` is determined by where the key first occurs. */
  lemma FindFirst<V>(e: Entries<V>, k: string, i: nat)
    requires i < |e| && e[i].0 == k && forall j :: 0 <= j < i ==> e[j].0 != k
    ensures Find(e, k) == Some(i)
  {
  }

  /** After `Put`, the key reads as the new value and every other key reads
      as before (last write wins). */
  lemma PutLookup<V>(e: Entries<V>, k: string, v: V, k': string)
    ensures Lookup(Put(e, k, v), k') == if k' == k then Some(v) else Lookup(e, k')
  {
    var e' := Put(e, k, v);
    match Find(e, k)
    case Some(i) =>
      if k' == k {
        FindFirst(e', k, i);
      } else {
        match Find(e, k')
        case Some(j) =>
          FindFirst(e', k', j);
        case None =>
          assert !HasKey(e', k');
      }
    case None =>
      if k' == k {
        FindFirst(e', k, |e|);
      } else {
        match Find(e, k')
        case Some(j) =>
          FindFirst(e', k', j);
        case None =>
          assert !HasKey(e', k');
      }
  }

  /** `Put` keeps the key order: an existing key stays where it was, a new
      key goes last; and it keeps the keys distinct. */
  lemma PutKeys<V>(e: Entries<V>, k: string, v: V)
    ensures Keys(Put(e, k, v)) == if HasKey(e, k) then Keys(e) else Keys(e) + [k]
    ensures Distinct(e) ==> Distinct(Put(e, k, v))
  {
  }

  /** `{ ...a, ...b }`: the entries of `b` assigned, in order, onto `a`. */
  function Merge<V>(a: Entries<V>, b: Entries<V>): Entries<V>
    decreases |b|
  {
    if b == [] then a else Merge(Put(a, b[0].0, b[0].1), b[1..])
  }

  /** Dropping a first entry with a different key does not change a lookup. */
  lemma LookupTail<V>(b: Entries<V>, k: string)
    requires b != [] && b[0].0 != k
    ensures Lookup(b, k) == Lookup(b[1..], k)
  {
    match Find(b[1..], k)
    case Some(j) =>
      FindFirst(b, k, j + 1);
    case None =>
  }

  /** A key of `b` reads as in `b`; any other key reads as in `a`. */
  lemma {:induction false} MergeLookup<V>(a: Entries<V>, b: Entries<V>, k: string)
    requires Distinct(b)
    ensures Lookup(Merge(a, b), k) == if HasKey(b, k) then Lookup(b, k) else Lookup(a, k)
    decreases |b|
  {
    if b != [] {
      var a' := Put(a, b[0].0, b[0].1);
      MergeLookup(a', b[1..], k);
      PutLookup(a, b[0].0, b[0].1, k);
      if b[0].0 == k {
        FindFirst(b, k, 0);
      } else {
        LookupTail(b, k);
        assert HasKey(b, k) <==> HasKey(b[1..], k) by {
          if HasKey(b, k) {
            var j :| 0 <= j < |b| && b[j].0 == k;
            assert b[1..][j - 1].0 == k;
          }
          if HasKey(b[1..], k) {
            var j :| 0 <= j < |b[1..]| && b[1..][j].0 == k;
            assert b[j + 1].0 == k;
          }
        }
      }
    }
  }

  lemma {:induction false} MergeDistinct<V>(a: Entries<V>, b: Entries<V>)
    requires Distinct(a)
    ensures Distinct(Merge(a, b))
    decreases |b|
  {
    if b != [] {
      PutKeys(a, b[0].0, b[0].1);
      MergeDistinct(Put(a, b[0].0, b[0].1), b[1..]);
    }
  }

  /** With distinct keys, the i-th value is the one bound to the i-th key:
      listing the values yields exactly one value per key. */
  lemma ValuesMatchKeys<V>(e: Entries<V>, i: nat)
    requires Distinct(e) && i < |e|
    ensures Lookup(e, Keys(e)[i]) == Some(Values(e)[i])
  {
    var k := e[i].0;
    match Find(e, k)
    case Some(j) =>
      assert j == i;
    case None =>
  }
}

=== FILE: panel_dev.dfy ===
/** The logic of the developer panel: the `play` command parser, the
    "running, then finished" detector that waits for a motion to end, and the
    file name of an exported phrase table. */
module PanelDev {
  import opened Js
  import opened Mapping

  // ---------------------------------------------------------------------
  // parsePlayCommand
  // ---------------------------------------------------------------------

  /** `word` (lower case) occurs at `p`, letters compared case-insensitively
      as the `i` flag of a regular expression compares them. */
  predicate WordAt(t: string, p: nat, word: string) {
    p + |word| <= |t| && forall k :: 0 <= k < |word| ==> LowerChar(t[p + k]) == word[k]
  }

  /** The first position at or after `from` that holds no decimal digit (or `|t|`). */
  function DigitRunEnd(t: string, from: nat): (i: nat)
    requires from <= |t|
    ensures from <= i <= |t| && (i < |t| ==> !IsDigit(t[i]))
    decreases |t| - from
  {
    if from == |t| || !IsDigit(t[from]) then from else DigitRunEnd(t, from + 1)
  }

  /** Everything `DigitRunEnd` skips is a digit. */
  lemma {:induction false} DigitRunEndSkipsDigits(t: string, from: nat)
    requires from <= |t|
    ensures forall k :: from <= k < DigitRunEnd(t, from) ==> IsDigit(t[k])
    decreases |t| - from
  {
    if from < |t| && IsDigit(t[from]) {
      DigitRunEndSkipsDigits(t, from + 1);
    }
  }

  /** The captures of `/play\s+(key|m|e)?\s*(\d+)/i`: the tag as written, if
      any, and the digits. */
  datatype PlayMatch = PlayMatch(tag: Option<string>, digits: string)

  /** `\s*(\d+)` from `from`, with the digit run taken whole. */
  function DigitsAfter(t: string, from: nat, tag: Option<string>): (r: Option<PlayMatch>)
    requires from <= |t|
    ensures r.Some? ==> r.value.tag == tag && r.value.digits != [] && AllDigits(r.value.digits)
  {
    var i := SpaceRunEnd(t, from);
    var j := DigitRunEnd(t, i);
    DigitRunEndSkipsDigits(t, i);
    if j == i then None else Some(PlayMatch(tag, t[i..j]))
  }

  /** `(key|m|e)?\s*(\d+)` from `q`, where the whitespace after `play` ends.
      The alternatives start with different letters and none with a digit or
      a space, so at most one of them can lead to a match and giving up the
      whitespace matched before brings no other. */
  function TagAndDigits(t: string, q: nat): Option<PlayMatch>
    requires q <= |t|
  {
    if WordAt(t, q, "key") then DigitsAfter(t, q + 3, Some(t[q..q + 3]))
    else if WordAt(t, q, "m") || WordAt(t, q, "e") then DigitsAfter(t, q + 1, Some(t[q..q + 1]))
    else DigitsAfter(t, q, None)
  }

  /** The match of the command pattern that starts at `p`, if there is one. */
  function MatchAt(t: string, p: nat): (r: Option<PlayMatch>)
    requires p <= |t|
  {
    if !WordAt(t, p, "play") then None
    else
      var q := SpaceRunEnd(t, p + 4);
      if q == p + 4 then None else TagAndDigits(t, q)
  }

  /** `DigitsAfter` reads whitespace and then a whole run of digits. */
  lemma DigitsAfterShape(t: string, from: nat, tag: Option<string>) returns (i: nat, j: nat)
    requires from <= |t| && DigitsAfter(t, from, tag).Some?
    ensures from <= i < j <= |t| && AllSpace(t[from..i])
    ensures DigitsAfter(t, from, tag).value.digits == t[i..j] && (j < |t| ==> !IsDigit(t[j]))
  {
    i := SpaceRunEnd(t, from);
    j := DigitRunEnd(t, i);
    SpaceRunEndSkipsSpace(t, from);
    assert forall k :: 0 <= k < i - from ==> t[from..i][k] == t[from + k];
  }

  /** A word found case-insensitively lower-cases to that word. */
  lemma WordAtLower(t: string, q: nat, w: string)
    requires WordAt(t, q, w)
    ensures ToLower(t[q..q + |w|]) == w
  {
    var sl := t[q..q + |w|];
    assert forall k :: 0 <= k < |w| ==> sl[k] == t[q + k];
  }

  /** What `(key|m|e)?\s*(\d+)` reads from `q`: an optional tag in any
      case, whitespace, and a whole run of digits. */
  lemma TagAndDigitsShape(t: string, q: nat) returns (i: nat, j: nat)
    requires q <= |t| && TagAndDigits(t, q).Some?
    ensures var m := TagAndDigits(t, q).value;
            q <= i < j <= |t| && m.digits == t[i..j] && (j < |t| ==> !IsDigit(t[j])) &&
            (m.tag.None? ==> AllSpace(t[q..i])) &&
            (m.tag.Some? ==> q + |m.tag.value| <= i && m.tag.value == t[q..q + |m.tag.value|] &&
                             ToLower(m.tag.value) in {"key", "m", "e"} &&
                             AllSpace(t[q + |m.tag.value|..i]))
  {
    if WordAt(t, q, "key") {
      WordAtLower(t, q, "key");
      i, j := DigitsAfterShape(t, q + 3, Some(t[q..q + 3]));
    } else if WordAt(t, q, "m") {
      WordAtLower(t, q, "m");
      i, j := DigitsAfterShape(t, q + 1, Some(t[q..q + 1]));
    } else if WordAt(t, q, "e") {
      WordAtLower(t, q, "e");
      i, j := DigitsAfterShape(t, q + 1, Some(t[q..q + 1]));
    } else {
      i, j := DigitsAfterShape(t, q, None);
    }
  }

  /** A match at `p` reads, in order: `play` in any case, at least one
      whitespace character, an optional tag `key`, `m` or `e` in any case,
      whitespace, and a whole run of decimal digits, which are the captures. */
  lemma MatchAtShape(t: string, p: nat) returns (q: nat, i: nat, j: nat)
    requires p <= |t| && MatchAt(t, p).Some?
    ensures WordAt(t, p, "play")
    ensures p + 4 < q <= i < j <= |t| && AllSpace(t[p + 4..q])
    ensures var m := MatchAt(t, p).value;
            m.digits == t[i..j] && (j < |t| ==> !IsDigit(t[j])) &&
            (m.tag.None? ==> AllSpace(t[q..i])) &&
            (m.tag.Some? ==> q + |m.tag.value| <= i && m.tag.value == t[q..q + |m.tag.value|] &&
                             ToLower(m.tag.value) in {"key", "m", "e"} &&
                             AllSpace(t[q + |m.tag.value|..i]))
  {
    q := SpaceRunEnd(t, p + 4);
    SpaceRunEndSkipsSpace(t, p + 4);
    var run := t[p + 4..q];
    assert forall k :: 0 <= k < |run| ==> run[k] == t[p + 4 + k];
    assert MatchAt(t, p) == TagAndDigits(t, q);
    i, j := TagAndDigitsShape(t, q);
  }

  /** The leftmost match at or after `from`. */
  function FirstMatch(t: string, from: nat): (r: Option<(nat, PlayMatch)>)
    requires from <= |t|
    ensures r.Some? ==> from <= r.value.0 <= |t| && MatchAt(t, r.value.0) == Some(r.value.1)
    decreases |t| - from
  {
    match MatchAt(t, from)
    case Some(m) => Some((from, m))
    case None => if from == |t| then None else FirstMatch(t, from + 1)
  }

  /** A parsed command: `{ type, index }`. */
  datatype PlayCommand = PlayCommand(kind: string, index: int) {
    function Object(): JsValue {
      Obj(map["type" := Str(kind), "index" := Num(index)])
    }
  }

  /** `parsePlayCommand(text)`; `None` is `null`. */
  function ParsePlayCommand(text: JsValue): (r: Option<PlayCommand>)
    ensures r.Some? ==> r.value.index >= 1 && r.value.kind in {"expression", "motion"}
  {
    var t := Trim(StringOrEmpty(text));
    match FirstMatch(t, 0)
    case None => None
    case Some((_, m)) => CommandOf(m)
  }

  /** The command the captures of a match spell. */
  function CommandOf(m: PlayMatch): (r: Option<PlayCommand>)
    requires AllDigits(m.digits)
    ensures r.Some? ==> r.value.index >= 1 && r.value.kind in {"expression", "motion"}
  {
    var tag := ToLower(m.tag.GetOr("key"));
    var num := DecimalValue(m.digits);
    if num < 1 then None
    else if tag == "e" then Some(PlayCommand("expression", num))
    else Some(PlayCommand("motion", num))
  }

  /** No match of the command pattern starts in `[lo, hi)`. */
  predicate NoMatchIn(t: string, lo: nat, hi: nat)
    requires hi <= |t| + 1
    decreases hi - lo
  {
    lo >= hi || (MatchAt(t, lo).None? && NoMatchIn(t, lo + 1, hi))
  }

  lemma {:induction false} NoMatchInAt(t: string, lo: nat, hi: nat, p: nat)
    requires hi <= |t| + 1 && NoMatchIn(t, lo, hi) && lo <= p < hi
    ensures MatchAt(t, p).None?
    decreases p - lo
  {
    if lo < p {
      NoMatchInAt(t, lo + 1, hi, p);
    }
  }

  lemma {:induction false} NoMatchBefore(t: string, from: nat)
    requires from <= |t|
    ensures FirstMatch(t, from).Some? ==> NoMatchIn(t, from, FirstMatch(t, from).value.0)
    ensures FirstMatch(t, from).None? ==> NoMatchIn(t, from, |t| + 1)
    decreases |t| - from
  {
    if MatchAt(t, from).None? && from < |t| {
      NoMatchBefore(t, from + 1);
    }
  }

  /** `FirstMatch` finds the leftmost match, and finds one whenever there is one. */
  lemma FirstMatchLeftmost(t: string, from: nat)
    requires from <= |t|
    ensures FirstMatch(t, from).Some? ==>
              forall p :: from <= p < FirstMatch(t, from).value.0 ==> MatchAt(t, p).None?
    ensures FirstMatch(t, from).None? ==> forall p :: from <= p <= |t| ==> MatchAt(t, p).None?
  {
    NoMatchBefore(t, from);
    var hi := match FirstMatch(t, from) case Some(r) => r.0 case None => |t| + 1;
    forall p | from <= p < hi ensures MatchAt(t, p).None? {
      NoMatchInAt(t, from, hi, p);
    }
  }

  /** A command parses only when the trimmed input contains a match of the
      pattern: `play`, whitespace, an optional tag and a run of digits. */
  lemma ParsePlayCommandSpec(text: JsValue)
    ensures var t := Trim(StringOrEmpty(text));
            var r := ParsePlayCommand(text);
            (r.Some? ==> exists p :: 0 <= p <= |t| && MatchAt(t, p).Some?) &&
            ((forall p :: 0 <= p <= |t| ==> MatchAt(t, p).None?) ==> r.None?)
  {
    var t := Trim(StringOrEmpty(text));
    FirstMatchLeftmost(t, 0);
  }

  /** The written form `play <tag><digits>` with a lower-case tag `key`, `m`,
      `e` or none parses to the expected command, or to `null` for index 0. */
  lemma ParseCanonical(tag: string, digits: string)
    requires tag in {"key", "m", "e", ""} && digits != [] && AllDigits(digits)
    ensures ParsePlayCommand(Str("play " + tag + digits)) ==
              if DecimalValue(digits) < 1 then None
              else if tag == "e" then Some(PlayCommand("expression", DecimalValue(digits)))
              else Some(PlayCommand("motion", DecimalValue(digits)))
  {
    CanonicalCommand(tag, digits);
    CanonicalCommandOf(tag, digits);
  }

  /** The captures of the written form spell the expected command. */
  lemma CanonicalCommandOf(tag: string, digits: string)
    requires tag in {"key", "m", "e", ""} && digits != [] && AllDigits(digits)
    ensures CommandOf(PlayMatch(if tag == "" then None else Some(tag), digits)) ==
              if DecimalValue(digits) < 1 then None
              else if tag == "e" then Some(PlayCommand("expression", DecimalValue(digits)))
              else Some(PlayCommand("motion", DecimalValue(digits)))
  {
    var written := if tag == "" then "key" else tag;
    ToLowerNoUpper(written);
    assert ToLower(written) == "e" <==> tag == "e";
  }

  /** The written form parses to the command its captures spell. */
  lemma CanonicalCommand(tag: string, digits: string)
    requires tag in {"key", "m", "e", ""} && digits != [] && AllDigits(digits)
    ensures ParsePlayCommand(Str("play " + tag + digits)) ==
              CommandOf(PlayMatch(if tag == "" then None else Some(tag), digits))
  {
    CanonicalFirstMatch(tag, digits);
  }

  /** The written form is already trimmed and the leftmost match starts at 0. */
  lemma CanonicalFirstMatch(tag: string, digits: string)
    requires tag in {"key", "m", "e", ""} && digits != [] && AllDigits(digits)
    ensures var t := "play " + tag + digits;
            Trim(StringOrEmpty(Str(t))) == t &&
            FirstMatch(t, 0) == Some((0, PlayMatch(if tag == "" then None else Some(tag), digits)))
  {
    var t := "play " + tag + digits;
    assert t[0] == 'p' && t[|t| - 1] == digits[|digits| - 1];
    TrimOfTrimmed(t);
    CanonicalMatch(tag, digits);
  }

  /** The pattern matches the written form at its start, capturing the tag
      and the digits. */
  lemma CanonicalMatch(tag: string, digits: string)
    requires tag in {"key", "m", "e", ""} && digits != [] && AllDigits(digits)
    ensures MatchAt("play " + tag + digits, 0) ==
              Some(PlayMatch(if tag == "" then None else Some(tag), digits))
  {
    var t := "play " + tag + digits;
    var q := 5 + |tag|;
    assert t[..5] == "play ";
    assert t[5..q] == tag;
    assert t[q..] == digits;
    assert !IsSpace(t[5]) by {
      if tag == "" { assert t[5] == digits[0]; } else { assert t[5] == tag[0]; }
    }
    PlayPrefix(t);
    CanonicalDigits(t, q, digits);
    CanonicalTag(t, tag, digits);
  }

  /** After `play` and one space, the match continues with the tag. */
  lemma PlayPrefix(t: string)
    requires |t| > 5 && t[..5] == "play " && !IsSpace(t[5])
    ensures MatchAt(t, 0) == TagAndDigits(t, 5)
  {
    assert WordAt(t, 0, "play") by {
      forall k | 0 <= k < 4 ensures LowerChar(t[k]) == "play"[k] {
        assert t[k] == t[..5][k];
      }
    }
    assert t[4] == t[..5][4];
    assert SpaceRunEnd(t, 4) == 5;
  }

  /** The written tag is read as the tag, and the digits after it whole. */
  lemma CanonicalTag(t: string, tag: string, digits: string)
    requires tag in {"key", "m", "e", ""} && digits != [] && AllDigits(digits)
    requires 5 + |tag| <= |t| && t[5..5 + |tag|] == tag
    requires SpaceRunEnd(t, 5 + |tag|) == 5 + |tag| && DigitRunEnd(t, 5 + |tag|) == |t|
    requires t[5 + |tag|..|t|] == digits
    ensures TagAndDigits(t, 5) == Some(PlayMatch(if tag == "" then None else Some(tag), digits))
  {
    if tag == "key" {
      assert WordAt(t, 5, "key") by {
        forall k | 0 <= k < 3 ensures LowerChar(t[5 + k]) == "key"[k] {
          assert t[5 + k] == tag[k];
        }
      }
    } else if tag == "m" {
      assert t[5] == tag[0];
      assert LowerChar(t[5 + 0]) != "key"[0];
      assert WordAt(t, 5, "m");
    } else if tag == "e" {
      assert t[5] == tag[0];
      assert LowerChar(t[5 + 0]) != "key"[0] && LowerChar(t[5 + 0]) != "m"[0];
      assert WordAt(t, 5, "e");
    } else {
      assert t[5] == digits[0];
      assert IsDigit(t[5]);
      assert LowerChar(t[5 + 0]) != "key"[0] && LowerChar(t[5 + 0]) != "m"[0];
      assert LowerChar(t[5 + 0]) != "e"[0];
    }
  }

  /** The digits that end the written form are read whole. */
  lemma CanonicalDigits(t: string, q: nat, digits: string)
    requires q <= |t| && t[q..] == digits && digits != [] && AllDigits(digits)
    ensures SpaceRunEnd(t, q) == q && DigitRunEnd(t, q) == |t| && t[q..|t|] == digits
  {
    assert t[q] == digits[0];
    DigitsToEnd(t, q);
  }

  lemma {:induction false} DigitsToEnd(t: string, q: nat)
    requires q <= |t| && forall k :: q <= k < |t| ==> IsDigit(t[k])
    ensures DigitRunEnd(t, q) == |t|
    decreases |t| - q
  {
    if q < |t| {
      DigitsToEnd(t, q + 1);
    }
  }

  /** A parsed command resolves in manual mode to the element it numbers
      (1-based) in the expression list or the flat motion list. */
  lemma ParsedCommandResolves(meta: Meta, cmd: PlayCommand)
    requires WellFormed(meta) && cmd.kind in {"expression", "motion"}
    ensures ResolveManual(meta, cmd.Object()) ==
              if cmd.index < 1 then None
              else if cmd.kind == "expression" && cmd.index <= |meta.expressions|
              then Some(ExpressionSpec(Str(meta.expressions[cmd.index - 1].name)))
              else if cmd.kind == "motion" && cmd.index <= |meta.flatMotions|
              then Some(MotionSpecOf(meta.flatMotions[cmd.index - 1]))
              else None
  {
    ManualObjectForm(cmd.kind, Num(cmd.index));
    ToLowerNoUpper(cmd.kind);
    ResolveManualSpec(meta, cmd.kind, Some(cmd.index));
  }

  // ---------------------------------------------------------------------
  // waitMotionFinished
  // ---------------------------------------------------------------------

  /** Some reading says finished after an earlier one said running. */
  predicate RanThenFinished(readings: seq<bool>) {
    exists j :: 0 <= j < |readings| && readings[j] && false in readings[..j]
  }

  /** A motion whose every reading says finished was never seen running and
      never counts as ended. */
  lemma NeverRunningNeverEnds(readings: seq<bool>)
    requires forall k :: 0 <= k < |readings| ==> readings[k]
    ensures !RanThenFinished(readings)
  {
  }

  /** The waiting started by `waitMotionFinished`: the `seenRunning` flag,
      whether the tick handler is attached to the ticker, and whether the
      returned promise has resolved. */
  class MotionWatcher {
    var seenRunning: bool
    var attached: bool
    var resolved: bool
    /** The `isFinished()` readings taken by the ticks so far. */
    ghost var readings: seq<bool>

    /** The handler stays attached exactly until the promise resolves, which
        happens at the first finished reading after a running one. */
    ghost predicate Valid()
      reads this
    {
      (seenRunning <==> false in readings) &&
      (attached ==> !resolved && !RanThenFinished(readings)) &&
      (resolved && readings != [] ==>
         !attached && readings[|readings| - 1] && false in readings[..|readings| - 1] &&
         !RanThenFinished(readings[..|readings| - 1]))
    }

    /** `waitMotionFinished(character)`: resolves at once when the motion
        manager has no `isFinished` function, otherwise attaches the tick. */
    constructor (hasIsFinished: bool)
      ensures Valid() && readings == [] && !seenRunning
      ensures attached == hasIsFinished && resolved == !hasIsFinished
    {
      seenRunning := false;
      attached := hasIsFinished;
      resolved := !hasIsFinished;
      readings := [];
    }

    /** One tick with the reading `finished`. */
    method Tick(finished: bool)
      requires Valid() && attached
      modifies this
      ensures Valid() && readings == old(readings) + [finished]
      ensures seenRunning == (old(seenRunning) || !finished)
      ensures resolved <==> RanThenFinished(readings)
      ensures attached <==> !resolved
    {
      readings := readings + [finished];
      assert readings[..|readings| - 1] == old(readings);
      if !finished {
        seenRunning := true;
      }
      if seenRunning && finished {
        attached := false;
        resolved := true;
      }
      RanThenFinishedStep(old(readings), finished);
    }
  }

  lemma RanThenFinishedStep(readings: seq<bool>, finished: bool)
    requires !RanThenFinished(readings)
    ensures RanThenFinished(readings + [finished]) <==> finished && false in readings
  {
    var r := readings + [finished];
    assert r[..|readings|] == readings;
    forall j | 0 <= j < |readings| ensures r[..j] == readings[..j] {
    }
  }

  // ---------------------------------------------------------------------
  // Export file name
  // ---------------------------------------------------------------------

  /** `\w`: an ASCII letter, digit or underscore. */
  predicate IsWordChar(c: char) {
    'a' <= c <= 'z' || 'A' <= c <= 'Z' || '0' <= c <= '9' || c == '_'
  }

  predicate AllWordChars(s: string) {
    forall k :: 0 <= k < |s| ==> IsWordChar(s[k])
  }

  /** The first position at or after `from` that holds a word character (or `|s|`). */
  function NonWordRunEnd(s: string, from: nat): (i: nat)
    requires from <= |s|
    ensures from <= i <= |s| && (i < |s| ==> IsWordChar(s[i]))
    ensures forall k :: from <= k < i ==> !IsWordChar(s[k])
    decreases |s| - from
  {
    if from == |s| || IsWordChar(s[from]) then from else NonWordRunEnd(s, from + 1)
  }

  /** `s.replace(/\W+/g, "_")` applied to `s[from..]`: each maximal run of
      non-word characters becomes one `_`. */
  function Sanitize(s: string, from: nat := 0): (r: string)
    requires from <= |s|
    ensures |r| <= |s| - from
    decreases |s| - from
  {
    if from == |s| then ""
    else if IsWordChar(s[from]) then [s[from]] + Sanitize(s, from + 1)
    else "_" + Sanitize(s, NonWordRunEnd(s, from))
  }

  /** The download name of an exported phrase table. */
  function ExportFileName(id: string): string {
    Sanitize(id) + "_nl_map.json"
  }

  /** The sanitised name holds word characters only. */
  lemma {:induction false} SanitizeWordChars(s: string, from: nat)
    requires from <= |s|
    ensures AllWordChars(Sanitize(s, from))
    decreases |s| - from
  {
    if from < |s| {
      if IsWordChar(s[from]) {
        SanitizeWordChars(s, from + 1);
      } else {
        var next := NonWordRunEnd(s, from);
        SanitizeWordChars(s, next);
      }
    }
  }

  /** A name of word characters only is kept as it is. */
  lemma {:induction false} SanitizeKeepsWords(s: string, from: nat)
    requires from <= |s| && AllWordChars(s)
    ensures Sanitize(s, from) == s[from..]
    decreases |s| - from
  {
    if from < |s| {
      SanitizeKeepsWords(s, from + 1);
      assert s[from..] == [s[from]] + s[from + 1..];
    }
  }

  lemma SanitizeIdempotent(s: string)
    ensures Sanitize(Sanitize(s)) == Sanitize(s)
  {
    SanitizeWordChars(s, 0);
    SanitizeKeepsWords(Sanitize(s), 0);
  }

  /** `NonWordRunEnd` is the first word position at or after `from` (or
      the end). */
  lemma NonWordRunEndIs(s: string, from: nat, e: nat)
    requires from <= e <= |s|
    requires forall k :: from <= k < e ==> !IsWordChar(s[k])
    requires e < |s| ==> IsWordChar(s[e])
    ensures NonWordRunEnd(s, from) == e
  {
  }

  /** Sanitising from a position past a prefix `p` is sanitising the rest
      on its own. */
  lemma {:induction false} SanitizeShift(p: string, b: string, k: nat)
    requires k <= |b|
    ensures Sanitize(p + b, |p| + k) == Sanitize(b, k)
    decreases |b| - k
  {
    var s := p + b;
    if k < |b| {
      assert s[|p| + k] == b[k];
      if IsWordChar(b[k]) {
        SanitizeShift(p, b, k + 1);
      } else {
        var e := NonWordRunEnd(b, k);
        forall i | |p| + k <= i < |p| + e ensures !IsWordChar(s[i]) {
          assert s[i] == b[i - |p|];
        }
        if e < |b| {
          assert s[|p| + e] == b[e];
        }
        NonWordRunEndIs(s, |p| + k, |p| + e);
        SanitizeShift(p, b, e);
      }
    }
  }

  /** Cutting the input at `m` where no run of non-word characters is split
      cuts the sanitised name there too. */
  lemma {:induction false} SanitizeSplit(s: string, from: nat, m: nat)
    requires from <= m <= |s|
    requires m == from || m == |s| || IsWordChar(s[m - 1]) || IsWordChar(s[m])
    ensures Sanitize(s, from) == Sanitize(s[..m], from) + Sanitize(s, m)
    decreases m - from
  {
    var a := s[..m];
    if from < m {
      assert a[from] == s[from];
      if IsWordChar(s[from]) {
        SanitizeSplit(s, from + 1, m);
      } else {
        var e := NonWordRunEnd(s, from);
        assert e <= m;
        forall i | from <= i < e ensures !IsWordChar(a[i]) {
          assert a[i] == s[i];
        }
        if e < m {
          assert a[e] == s[e];
        }
        NonWordRunEndIs(a, from, e);
        SanitizeSplit(s, e, m);
      }
    }
  }

  /** `replace(/\W+/g, "_")` works run by run: two pieces whose junction
      does not fall inside a run of non-word characters are sanitised
      independently. */
  lemma {:induction false} SanitizeConcat(a: string, b: string)
    requires a == [] || b == [] || IsWordChar(a[|a| - 1]) || IsWordChar(b[0])
    ensures Sanitize(a + b) == Sanitize(a) + Sanitize(b)
  {
    var s := a + b;
    if b != [] {
      assert s[|a|] == b[0];
    }
    if a != [] {
      assert s[|a| - 1] == a[|a| - 1];
    }
    SanitizeSplit(s, 0, |a|);
    assert s[..|a|] == a;
    SanitizeShift(a, b, 0);
  }

  /** A whole run of non-word characters becomes a single `_`. */
  lemma {:induction false} SanitizeRun(r: string)
    requires r != [] && forall k :: 0 <= k < |r| ==> !IsWordChar(r[k])
    ensures Sanitize(r) == "_"
  {
    NonWordRunEndIs(r, 0, |r|);
  }

  /** A maximal run of non-word characters between two pieces becomes one
      `_` between their sanitised forms. */
  lemma {:induction false} SanitizeRunBetween(a: string, r: string, b: string)
    requires r != [] && forall k :: 0 <= k < |r| ==> !IsWordChar(r[k])
    requires a == [] || IsWordChar(a[|a| - 1])
    requires b == [] || IsWordChar(b[0])
    ensures Sanitize(a + r + b) == Sanitize(a) + "_" + Sanitize(b)
  {
    var rb := r + b;
    assert rb[0] == r[0];
    calc {
      Sanitize(a + r + b);
      { assert a + r + b == a + rb; }
      Sanitize(a + rb);
      { SanitizeConcat(a, rb); }
      Sanitize(a) + Sanitize(rb);
      { SanitizeConcat(r, b); SanitizeRun(r); }
      Sanitize(a) + ("_" + Sanitize(b));
    }
  }

  /** The export name is the sanitised id followed by `_nl_map.json`, and
      everything before that suffix is a word character. */
  lemma ExportFileNameShape(id: string)
    ensures var n := ExportFileName(id);
            |n| >= 12 && n[|n| - 12..] == "_nl_map.json" && AllWordChars(n[..|n| - 12])
  {
    SanitizeWordChars(id, 0);
    var n := ExportFileName(id);
    assert n[..|n| - 12] == Sanitize(id);
  }
}

=== FILE: say_enhanced.dfy ===
/** Bracket-tag dialogue helpers: a line of dialogue may start (or contain)
    a tag in ASCII or full-width brackets, `(害羞)` or `（害羞）`; the first
    such tag is cut out of the text and looked up in the character's phrase
    table to choose a motion or an expression for `say`. */
module SayEnhanced {
  import opened Js
  import opened Ordered
  import opened Mapping

  predicate IsOpen(c: char) { c == '(' || c == '\U{FF08}' }
  predicate IsClose(c: char) { c == ')' || c == '\U{FF09}' }
  predicate IsBracket(c: char) { IsOpen(c) || IsClose(c) }

  predicate NoBrackets(s: string) {
    forall k :: 0 <= k < |s| ==> !IsBracket(s[k])
  }

  /** The pattern `[（(]([^()（）]+)[）)]` matches `s[i..j + 1]`: an opening
      bracket of either width, at least one character that is no bracket at
      all, and a closing bracket of either width. */
  predicate TagAt(s: string, i: int, j: int) {
    0 <= i && i + 1 < j < |s| && IsOpen(s[i]) && IsClose(s[j]) &&
    forall k :: i < k < j ==> !IsBracket(s[k])
  }

  /** The first bracket character at or after `from` (or `|s|`). */
  function NextBracket(s: string, from: nat): (j: nat)
    requires from <= |s|
    ensures from <= j <= |s|
    ensures j < |s| ==> IsBracket(s[j])
    ensures forall k :: from <= k < j ==> !IsBracket(s[k])
    decreases |s| - from
  {
    if from == |s| || IsBracket(s[from]) then from else NextBracket(s, from + 1)
  }

  /** The match that starts at `i`, if any. Since the body excludes every
      bracket, the closing bracket can only be the first bracket after `i`. */
  function TagFrom(s: string, i: nat): (r: Option<nat>)
    requires i < |s|
    ensures r.Some? ==> TagAt(s, i, r.value)
    ensures r.None? ==> forall j :: !TagAt(s, i, j)
  {
    if !IsOpen(s[i]) then None
    else
      var j := NextBracket(s, i + 1);
      if i + 1 < j < |s| && IsClose(s[j]) then Some(j) else None
  }

  /** `s.match(...)` without the global flag: the leftmost match. */
  function FirstTag(s: string, from: nat := 0): (r: Option<(nat, nat)>)
    requires from <= |s|
    ensures r.Some? ==> from <= r.value.0 && TagAt(s, r.value.0, r.value.1)
    decreases |s| - from
  {
    if from == |s| then None
    else match TagFrom(s, from)
      case Some(j) => Some((from, j))
      case None => FirstTag(s, from + 1)
  }

  /** `FirstTag` finds the leftmost match, and finds one whenever there is one. */
  lemma {:induction false} FirstTagLeftmost(s: string, from: nat)
    requires from <= |s|
    ensures FirstTag(s, from).Some? ==>
              forall i, j :: from <= i < FirstTag(s, from).value.0 ==> !TagAt(s, i, j)
    ensures FirstTag(s, from).None? ==> forall i, j :: from <= i ==> !TagAt(s, i, j)
    decreases |s| - from
  {
    if from < |s| && TagFrom(s, from).None? {
      FirstTagLeftmost(s, from + 1);
    }
  }

  /** Result of `extractFirstTag`: `tag` is `None` for null. */
  datatype TagResult = TagResult(tag: Option<string>, cleanText: string, raw: string)

  /** `extractFirstTag(text)`. */
  function ExtractFirstTag(text: JsValue): TagResult {
    ExtractTag(StringOrEmptyIfNullish(text))
  }

  /** `extractFirstTag` once its argument has been turned into a string. */
  function ExtractTag(raw: string): TagResult {
    var m := FirstTag(raw);
    if m.None? then TagResult(None, Trim(raw), raw) else CutTag(raw, m.value.0, m.value.1)
  }

  /** The tag found at `raw[i..j + 1]` and the text around it. */
  function CutTag(raw: string, i: nat, j: nat): TagResult
    requires i < j < |raw|
  {
    var tag := Trim(raw[i + 1..j]);
    var cleanText := Trim(raw[..i] + raw[j + 1..]);
    TagResult(if tag == [] then None else Some(tag),
              if cleanText == [] then Trim(raw) else cleanText, raw)
  }

  /** Trimming a bracket-free body keeps it bracket-free. */
  lemma TrimmedBody(body: string)
    requires NoBrackets(body)
    ensures Trim(body) == [] <==> AllSpace(body)
    ensures Trim(body) != [] ==> Trim(Trim(body)) == Trim(body) && NoBrackets(Trim(body))
  {
    TrimEmptyIffAllSpace(body);
    var t := Trim(body);
    if t != [] {
      TrimOfTrimmed(t);
      var o := TrimIsInfix(body);
      forall k | 0 <= k < |t| ensures !IsBracket(t[k]) {
        assert t[k] == body[o + k];
      }
    }
  }

  /** A tag that is returned is trimmed, non-empty and bracket-free; a bracket
      body that is only whitespace gives no tag. */
  lemma TagShape(raw: string)
    ensures var r := ExtractTag(raw);
            r.tag.Some? ==> r.tag.value != [] && Trim(r.tag.value) == r.tag.value
                            && NoBrackets(r.tag.value)
    ensures var r := ExtractTag(raw);
            r.tag.None? <==> FirstTag(raw).None? ||
                             AllSpace(raw[FirstTag(raw).value.0 + 1..FirstTag(raw).value.1])
  {
    var m := FirstTag(raw);
    if m.Some? {
      assert ExtractTag(raw) == CutTag(raw, m.value.0, m.value.1);
      CutTagShape(raw, m.value.0, m.value.1);
    } else {
      assert ExtractTag(raw).tag.None?;
    }
  }

  lemma CutTagShape(raw: string, i: nat, j: nat)
    requires TagAt(raw, i, j)
    ensures var t := CutTag(raw, i, j).tag;
            (t.None? <==> AllSpace(raw[i + 1..j])) &&
            (t.Some? ==> t.value != [] && Trim(t.value) == t.value && NoBrackets(t.value))
  {
    var body := raw[i + 1..j];
    forall k | 0 <= k < |body| ensures !IsBracket(body[k]) {
      assert body[k] == raw[i + 1 + k];
    }
    TrimmedBody(body);
  }

  /** The cleaned text is empty only when the whole input is blank. */
  lemma CleanTextEmpty(raw: string)
    ensures ExtractTag(raw).cleanText == [] <==> AllSpace(raw)
  {
    TrimEmptyIffAllSpace(raw);
  }

  /** A text that opens with a well-formed tag: the tag is its trimmed body and
      the clean text is what follows it, trimmed (when that is not blank). This
      is how a scripted line such as `（害羞）本魔女…` or `(脸红) 本魔女…` is read. */
  lemma {:induction false} LeadingTag(body: string, open: char, close: char, rest: string)
    requires IsOpen(open) && IsClose(close)
    requires body != [] && NoBrackets(body) && !AllSpace(body)
    requires !AllSpace(rest)
    ensures ExtractTag([open] + body + [close] + rest)
            == TagResult(Some(Trim(body)), Trim(rest), [open] + body + [close] + rest)
  {
    var s := [open] + body + [close] + rest;
    var j := |body| + 1;
    LeadingTagFound(body, open, close, rest);
    LeadingTagParts(body, open, close, rest);
    TagCut(s, j, body, rest);
  }

  /** Cutting the first match out of a text. */
  lemma TagCut(s: string, j: nat, body: string, rest: string)
    requires 0 < j < |s| && FirstTag(s) == Some((0, j))
    requires s[1..j] == body && s[..0] + s[j + 1..] == rest
    requires !AllSpace(body) && !AllSpace(rest)
    ensures ExtractTag(s) == TagResult(Some(Trim(body)), Trim(rest), s)
  {
    assert ExtractTag(s) == CutTag(s, 0, j);
    TrimEmptyIffAllSpace(body);
    TrimEmptyIffAllSpace(rest);
  }

  /** The text between the brackets and the text around them. */
  lemma LeadingTagParts(body: string, open: char, close: char, rest: string)
    ensures var s := [open] + body + [close] + rest;
            s[1..|body| + 1] == body && s[..0] + s[|body| + 2..] == rest
  {
    var s := [open] + body + [close] + rest;
    assert s[1..|body| + 1] == body;
    assert s[|body| + 2..] == rest;
  }

  /** The leading bracket pair is the first match. */
  lemma LeadingTagFound(body: string, open: char, close: char, rest: string)
    requires IsOpen(open) && IsClose(close) && body != [] && NoBrackets(body)
    ensures FirstTag([open] + body + [close] + rest) == Some((0, |body| + 1))
  {
    var s := [open] + body + [close] + rest;
    var j := |body| + 1;
    forall k | 0 < k < j ensures !IsBracket(s[k]) {
      assert s[k] == body[k - 1];
    }
    assert IsClose(s[j]);
    var n := NextBracket(s, 1);
    assert n == j;
    assert TagFrom(s, 0) == Some(j);
  }

  // ---------------------------------------------------------------------
  // Looking a tag up in the phrase table
  // ---------------------------------------------------------------------

  /** `{ motion, expression, entry }`; `Undefined` stands for undefined. */
  datatype TagAction = TagAction(motion: JsValue, expression: JsValue, entry: Option<Rule>)

  const Hiyori: JsValue := Str("hiyori")

  /** `resolveActionFromNLMap(id, tag, nlMap)`; `nlMap` is `None` for null. */
  function ResolveActionFromNLMap(id: JsValue, tag: Option<string>, nlMap: Option<PhraseTable>)
    : (r: TagAction)
    ensures r.entry.None? <==>
              tag.None? || tag.value == [] || nlMap.None? || !HasKey(nlMap.value, tag.value)
    ensures r.entry.None? ==> r.motion == Undefined && r.expression == Undefined
    ensures r.entry.Some? ==> r.entry == Lookup(nlMap.value, tag.value)
    ensures r.motion == Undefined || r.expression == Undefined
    ensures r.motion != Undefined ==> tag.Some? && r.motion == Str(tag.value)
                                      && r.entry.value.kind == Str("motion")
    ensures r.entry.Some? && r.entry.value.kind == Str("motion") ==> r.motion == Str(tag.value)
    ensures id == Hiyori ==> r.expression == Undefined
    ensures r.entry.Some? && id != Hiyori && r.entry.value.kind == Str("expression") ==>
              r.expression == r.entry.value.name
  {
    if tag.None? || tag.value == [] || nlMap.None? || !HasKey(nlMap.value, tag.value) then
      TagAction(Undefined, Undefined, None)
    else
      var entry := Lookup(nlMap.value, tag.value).value;
      var motion := if entry.kind == Str("motion") then Str(tag.value) else Undefined;
      if id == Hiyori then
        TagAction(motion, Undefined, Some(entry))
      else
        TagAction(motion,
                  if entry.kind == Str("expression") then entry.name else Undefined,
                  Some(entry))
  }

  // ---------------------------------------------------------------------
  // sayEnhanced
  // ---------------------------------------------------------------------

  /** The phrase-table source handed to `createSayEnhanced`: `None` when the
      caller's `getNLMap` is not a function; the oracle answers `None` for a
      falsy table. */
  type NLMapSource = Option<JsValue -> Option<PhraseTable>>

  datatype SayEnhancer = SayEnhancer(getNLMap: NLMapSource)

  datatype Created = Created(enhancer: SayEnhancer) | Thrown(message: string)

  /** `createSayEnhanced({ say, getNLMap })`: throws when `say` is not a function. */
  function CreateSayEnhanced(sayIsFunction: bool, getNLMap: NLMapSource): (r: Created)
    ensures r.Thrown? <==> !sayIsFunction
    ensures r.Created? ==> r.enhancer.getNLMap == getNLMap
  {
    if !sayIsFunction then Thrown("[say_enhanced] say function is required.")
    else Created(SayEnhancer(getNLMap))
  }

  /** The option keys `sayEnhanced` consumes and never forwards as they were. */
  const Consumed: set<string> := {"id", "text", "debug", "motion", "expression"}

  /** The text option after the destructuring default (`text = ""`). */
  function TextOption(options: Fields): JsValue {
    var t := Get(options, "text");
    if t.Undefined? then Str("") else t
  }

  /** The phrase table used for `id` (`getNLMap(id) || {}`). */
  function TableFor(e: SayEnhancer, id: JsValue): PhraseTable {
    match e.getNLMap
    case Some(f) => f(id).GetOr([])
    case None => []
  }

  /** The payload `sayEnhanced(options)` hands to `say` (whose result it returns). */
  function Payload(e: SayEnhancer, options: Fields): Fields {
    var id := Get(options, "id");
    var extracted := ExtractFirstTag(TextOption(options));
    PayloadOf(options, extracted.cleanText,
              ResolveActionFromNLMap(id, extracted.tag, Some(TableFor(e, id))))
  }

  /** The payload built from the options, the cleaned text and the resolved action. */
  function PayloadOf(options: Fields, cleanText: string, action: TagAction): Fields {
    var id := Get(options, "id");
    var p0 := (options - Consumed)["id" := id]["text" := Str(cleanText)];
    var p1 := if Truthy(action.motion) then p0["motion" := action.motion] else p0;
    if id != Hiyori && action.expression != Undefined then p1["expression" := action.expression]
    else p1
  }

  /** The motion key of the payload: present exactly when the tag names a
      motion rule of the table, and then it carries the tag. */
  lemma PayloadMotion(e: SayEnhancer, options: Fields)
    ensures var p := Payload(e, options);
            var tag := ExtractFirstTag(TextOption(options)).tag;
            var table := TableFor(e, Get(options, "id"));
            ("motion" in p <==> tag.Some? && HasKey(table, tag.value)
                                && Lookup(table, tag.value).value.kind == Str("motion")) &&
            ("motion" in p ==> p["motion"] == Str(tag.value))
  {
    var id := Get(options, "id");
    var extracted := ExtractFirstTag(TextOption(options));
    var action := ResolveActionFromNLMap(id, extracted.tag, Some(TableFor(e, id)));
    assert Payload(e, options) == PayloadOf(options, extracted.cleanText, action);
    PayloadOfActionKeys(options, extracted.cleanText, action);
  }

  /** The expression key of the payload: never for `hiyori`; otherwise present
      exactly when the tag names an expression rule with a defined name, and
      then it carries that name. */
  lemma PayloadExpression(e: SayEnhancer, options: Fields)
    ensures var p := Payload(e, options);
            var tag := ExtractFirstTag(TextOption(options)).tag;
            var table := TableFor(e, Get(options, "id"));
            ("expression" in p <==> Get(options, "id") != Hiyori && tag.Some? &&
                                    HasKey(table, tag.value) &&
                                    Lookup(table, tag.value).value.kind == Str("expression") &&
                                    Lookup(table, tag.value).value.name != Undefined) &&
            ("expression" in p ==> p["expression"] == Lookup(table, tag.value).value.name)
  {
    var id := Get(options, "id");
    var extracted := ExtractFirstTag(TextOption(options));
    var action := ResolveActionFromNLMap(id, extracted.tag, Some(TableFor(e, id)));
    assert Payload(e, options) == PayloadOf(options, extracted.cleanText, action);
    PayloadOfActionKeys(options, extracted.cleanText, action);
  }

  /** The payload's `motion` is the action's truthy motion, and its
      `expression` the action's defined expression unless the id is `hiyori`. */
  lemma PayloadOfActionKeys(options: Fields, cleanText: string, action: TagAction)
    ensures var p := PayloadOf(options, cleanText, action);
            ("motion" in p <==> Truthy(action.motion)) &&
            ("motion" in p ==> p["motion"] == action.motion) &&
            ("expression" in p <==> Get(options, "id") != Hiyori && action.expression != Undefined) &&
            ("expression" in p ==> p["expression"] == action.expression)
  {
  }

  /** The payload forwards every option `sayEnhanced` does not consume, never
      forwards `debug`, and carries the id and the cleaned text. */
  lemma PayloadFields(e: SayEnhancer, options: Fields)
    ensures var p := Payload(e, options);
            "debug" !in p &&
            (forall k :: k in options && k !in Consumed ==> k in p && p[k] == options[k]) &&
            (forall k :: k in p ==> k in options || k in Consumed) &&
            "id" in p && p["id"] == Get(options, "id") &&
            "text" in p && p["text"] == Str(ExtractFirstTag(TextOption(options)).cleanText)
  {
    var id := Get(options, "id");
    var extracted := ExtractFirstTag(TextOption(options));
    PayloadOfFields(options, extracted.cleanText,
                    ResolveActionFromNLMap(id, extracted.tag, Some(TableFor(e, id))));
  }

  lemma PayloadOfFields(options: Fields, cleanText: string, action: TagAction)
    ensures var p := PayloadOf(options, cleanText, action);
            "debug" !in p &&
            (forall k :: k in options && k !in Consumed ==> k in p && p[k] == options[k]) &&
            (forall k :: k in p ==> k in options || k in Consumed) &&
            "id" in p && p["id"] == Get(options, "id") &&
            "text" in p && p["text"] == Str(cleanText)
  {
  }
}
